=== FILE: README.md ===
# SDL TLSF arena layer in Dafny

This project models the arena/pool bookkeeping layer of `TLSF/SDL_TLSF/sdl_tlsf.c`. The layer sits between SDL's memory hooks and a TLSF allocation core.

- **Instances and pools.** An *instance* owns a doubly linked list of *pools*. The first pool lies in the instance's own mapping, right after the instance and pool records, and the core is created on it (`tlsf_create_with_pool`, lines 71-91). Every later pool is a separate OS mapping registered with `tlsf_add_pool`. The instance keeps four counters: `num_pools`, `pool_size`, `total_size` and `total_used`.
- **Growth.** `malloc` and `calloc` add a pool before asking the core when the headroom `total_size - total_used` is short of the request. They add one more pool and retry once when the core fails. `realloc` does both only for a request larger than the current block, and then measures the headroom against the increase (lines 354-373).
- **Shrink.** `free` drops a pool once its `used` reaches 0, provided more than one pool exists.
- **Directory.** A process-wide directory holds the *active* and the *base* instance and the shared pool id counter.

The model is a functional state machine:

- **`common.dfy` (module `Common`).** `Option`, and `size_t` as `Size` (0 ≤ x < 2^64) with wrap-around `Add`/`Sub`. Also sums of integer sequences, with the lemmas used for the counters.
- **`pool_list.dfy` (module `PoolList`).**
  - `Pool`, the address range test (`Holds`, inclusive `end`) and the header-to-tail scan `FindPool`.
  - The list as C keeps it: `Links` holds the header, the tail and the `prev`/`next` field of every pool record, keyed by record address.
  - `Shape(links, order)` says the pointers describe exactly the order `order`.
  - The pointer surgery of `add_pool` and `free_pool` is proved correct against that order.
- **`arena.dfy` (module `Arena`).**
  - One `Instance`: the pool order as `seq<Pool>` together with its `Links`, plus the four counters.
  - The invariant `Wf`: the list shape, `num_pools == |pools| mod 2^64`, the layout of every pool, pools that do not overlap, ascending ids, and `total_used == Σ used (mod 2^64)`.
  - The operations `CreateInstance`, `GetPool`, `AddPool`, `FreePool`, `Malloc`, `Calloc`, `Free` and `Realloc`.
- **`directory.dfy` (module `Directory`).**
  - `World`: the instances by handle, active, base and the id counter.
  - `Init`, `CreateIn`, `SetInstance`, `RebaseInstance`, and `free_pool` as it really behaves for a pool of any instance.
  - The destroy walk, both as the `while` loop of the source (`DestroyPools`) and as a recursive reference (`Strip`), and `DestroyInstance`.
- **`findings.dfy` (module `Findings`).** The four discrepancies listed under "Findings", each with an as-written witness and a corrected definition.

The TLSF core is an oracle, so its answers are parameters:

- `Grant` is the answer of `mmap` plus `tlsf_add_pool`: failed, rejected, or mapped at an address.
- `CoreEnv` holds the two grants one call may receive and the two addresses the core returns, with NULL = 0 for failure.
- `tlsf_block_size` is a function `Addr -> Size`. Realloc gets the before and after versions.

Preservation lemmas assume two things about the oracle:

- `FreshGrants`: new mappings do not overlap existing pools.
- `Honest`: a returned block lies in a pool of the instance that asked.

Layout constants are those of a 64-bit build: `sizeof(tlsf_pool)` = 72, `sizeof(tlsf_instance)` = 56 and `tlsf_pool_overhead()` = 16. None of these is defined in the modelled file. The general lemmas use only that they are positive and far below 2^64. Two lemmas depend on the exact values:

- `Findings.ReallocUnbalances` places its block at 4300. That address lies in the pool only because the pool of an instance mapped at 4096 spans 4096 + 56 + 72 = 4224 to 5224.
- The 88 bytes of Finding 1 are `sizeof(tlsf_pool) + tlsf_pool_overhead()`; `Findings.AddThenFreeDrifts` states the drift as that sum.

Three behaviours of the code are easy to miss, and the model follows them:

- The range test includes `end` (line 440: `ptr_addr <= pool->end`), so it is not a half-open `[start, end)`.
- calloc has no "too large for a pool" check. malloc has one at line 218 and realloc at line 356; calloc (lines 299-306) does not.
- `free` can remove the first pool (lines 287-293), although the comment at line 153 says the header pool is contiguous with the instance, which is why the destroy walk skips it (Finding 4).

## Model

| member | source | states |
|---|---|---|
| PoolList.FindPool | TLSF/SDL_TLSF/sdl_tlsf.c:432-453 | returns the first pool in header-to-tail order with `start <= addr <= end`, and None exactly when no pool holds `addr` |
| PoolList.WalkFromHeader | TLSF/SDL_TLSF/sdl_tlsf.c:436-450 | following `next` from the header visits exactly the pools in list order, each once, then reaches NULL |
| PoolList.LinkTailShape | TLSF/SDL_TLSF/sdl_tlsf.c:495-506 | appending a new record keeps the list well formed with the record as the new tail; its `prev` is the old tail and the old tail's `next` is the record |
| PoolList.UnlinkShape | TLSF/SDL_TLSF/sdl_tlsf.c:525-539 | unlinking the k-th record leaves pointers that describe exactly the remaining records in their old order |
| PoolList.UnlinkEnds | TLSF/SDL_TLSF/sdl_tlsf.c:533-539 | after unlinking, header and tail are the first and last of the remaining records (moved only when an endpoint was removed) |
| PoolList.RelinkLastChain | TLSF/SDL_TLSF/sdl_tlsf.c:525-530 | relinking the neighbours of the last record, without touching header or tail, leaves every remaining link consistent with the shortened order |
| Arena.CreateInstance | TLSF/SDL_TLSF/sdl_tlsf.c:64-121 | fails exactly when the mapping fails; otherwise one pool, header and tail, `used == 0`, range `[start, start + pool_size]`, `num_pools == 1`, `total_size == pool_size`, `total_used == 0`, and the invariant holds |
| Arena.GetPool | TLSF/SDL_TLSF/sdl_tlsf.c:432-453 | the first pool whose inclusive range holds the address, or None if no pool holds it; the instance is not changed |
| Arena.GetPoolResolvesOwner | TLSF/SDL_TLSF/sdl_tlsf.c:432-453 | on a well-formed instance the scan follows the list in order, and an address held by pool j resolves to j and to no other pool |
| Arena.AddPool | TLSF/SDL_TLSF/sdl_tlsf.c:455-514 | on failure nothing changes; on success one pool with `used == 0` and id counter+1 is appended, earlier pools are unchanged, `num_pools` grows by one and `total_size` by `alloc_size` |
| Arena.AddPoolPreservesWf | TLSF/SDL_TLSF/sdl_tlsf.c:495-509 | adding a fresh pool keeps the invariant (balance included), with the new pool as tail, `prev` = old tail and the old tail's `next` = new pool |
| Arena.FreePool | TLSF/SDL_TLSF/sdl_tlsf.c:516-551 | exactly pool k disappears, the others keep their order, `num_pools` drops by 1 and `total_size` by `pool_size` |
| Arena.FreePoolPreservesWf | TLSF/SDL_TLSF/sdl_tlsf.c:525-543 | removing one of at least two pools keeps the invariant; header or tail move to the neighbour when an endpoint is removed; balance holds when the removed pool was empty |
| Arena.GrowThenRetry | TLSF/SDL_TLSF/sdl_tlsf.c:227-246 | adds exactly one pool (if granted) when short, asks the core, and after a failure adds exactly one more pool and asks once more; earlier pools are unchanged and the new ones are empty |
| Arena.GrowThenRetryCounters | TLSF/SDL_TLSF/sdl_tlsf.c:227-246 | each added pool raises `num_pools` by one and `total_size` by `alloc_size` (line 509), both mod 2^64; `pool_size` and `total_used` stay |
| Arena.GrowThenRetryPreservesWf | TLSF/SDL_TLSF/sdl_tlsf.c:227-246 | the growth steps keep the invariant when the mappings are fresh |
| Arena.Account | TLSF/SDL_TLSF/sdl_tlsf.c:248-259 | `total_used` grows by the block size even when the pool lookup fails; only when it succeeds does the resolved pool's `used` grow too and the pointer come back, otherwise NULL |
| Arena.AccountBalance | TLSF/SDL_TLSF/sdl_tlsf.c:248-259 | a resolved block keeps `total_used == Σ used`; an unresolved non-zero block breaks it |
| Arena.BumpBalanced | TLSF/SDL_TLSF/sdl_tlsf.c:250-259 | adding the same amount, with wrap-around, to `total_used` and to one pool's `used` keeps the balance |
| Arena.DropBalanced | TLSF/SDL_TLSF/sdl_tlsf.c:280-284 | subtracting the same amount, with wrap-around, from one pool's `used` and from `total_used` keeps the balance |
| Arena.Malloc | TLSF/SDL_TLSF/sdl_tlsf.c:211-264 | a request `>= pool_size - overhead` returns NULL with nothing changed; otherwise the pool count grows by the two growth steps only, and the result is the core's answer (first, else retry) exactly when that answer is non-NULL and `get_pool` resolves it, NULL otherwise; two core failures give NULL with `total_used` unchanged; `num_pools` and `total_size` rise by one and `alloc_size` per added pool; a returned block changes only `total_used` and its own pool's `used` in the grown instance, and NULL changes at most `total_used` |
| Arena.MallocPreservesWf | TLSF/SDL_TLSF/sdl_tlsf.c:248-259 | a successful malloc adds `block_size(ptr)` to `total_used` and to the `used` of the pool `get_pool(ptr)` resolves, and keeps the invariant |
| Arena.Place | TLSF/SDL_TLSF/sdl_tlsf.c:227-258 | the pool count grows by exactly the granted proactive and recovery pools and the id counter by as many; the pointer is the core's first answer, else its retry answer, exactly when that answer is non-NULL and `get_pool` resolves it in the grown instance, and NULL otherwise; NULL from the core leaves `total_used` alone, a block adds `block_size(ptr)` to it, and a returned pointer was resolved to a pool whose `used` grew by the same amount; every other pool and field is that of the grown instance, whose `num_pools` and `total_size` rose by one and `alloc_size` per added pool |
| Arena.Charge | TLSF/SDL_TLSF/sdl_tlsf.c:248-263 | after the core answered: NULL changes nothing; otherwise `total_used` grows by the block size, and exactly a block that `get_pool` resolves is returned and charged to that pool, with every other pool and field unchanged |
| Arena.PlacePreservesWf | TLSF/SDL_TLSF/sdl_tlsf.c:227-259 | growth, core call and accounting together keep the invariant and charge the block to its pool and the total |
| Arena.Calloc | TLSF/SDL_TLSF/sdl_tlsf.c:299-344 | on the wrapped product `nmemb * size` it behaves as malloc whenever malloc would not refuse the size, with the same growth rule |
| Arena.CallocPreservesWf | TLSF/SDL_TLSF/sdl_tlsf.c:299-338 | a successful calloc keeps the invariant, adds `block_size(ptr)` to `total_used`, and adds the same amount to the `used` of the pool `get_pool(ptr)` resolves after growth |
| Arena.CallocSkipsSizeCheck | TLSF/SDL_TLSF/sdl_tlsf.c:299-312 | a request malloc refuses unchanged still makes calloc add a pool when the headroom is short |
| Arena.Free | TLSF/SDL_TLSF/sdl_tlsf.c:266-297 | an unresolved pointer dereferences NULL (None); otherwise the pool's `used` and `total_used` drop by `block_size(ptr)`, and the pool is removed if and only if its `used` became 0 and `num_pools > 1`; a removal lowers `num_pools` by one and `total_size` by `pool_size` (lines 542-543), and without one nothing but that pool's `used` and `total_used` changes |
| Arena.FreePreservesWf | TLSF/SDL_TLSF/sdl_tlsf.c:271-293 | free keeps the invariant and never removes an instance's only pool |
| Arena.Recharge | TLSF/SDL_TLSF/sdl_tlsf.c:386-391 | the old pool (looked up before any change) loses `current_size`, the new pool gains the new block size, a pool that is both gets both, every other pool and every counter is unchanged, and the structure stays sound |
| Arena.Moved | TLSF/SDL_TLSF/sdl_tlsf.c:384-396 | `total_used`, the counter and the pointer are kept; the old pool is removed if and only if it was found, its recharged `used` is 0 and `num_pools > 1`; without removal every pool is the recharged one, with removal the pools before it are recharged in place and those after it shift down by one, `num_pools` drops by one and `total_size` by `pool_size`; without removal only the pools change; the structure stays sound |
| Arena.InPlace | TLSF/SDL_TLSF/sdl_tlsf.c:397-403 | `total_used`, the counter, the pointer, the pool count and every counter are kept; only the pool holding the block changes, by `block_size(new_ptr) - current_size` with wrap-around, and only in `used` |
| Arena.Adjust | TLSF/SDL_TLSF/sdl_tlsf.c:377-403 | a NULL answer changes nothing; otherwise the pool count drops by at most one, and only when the block moved; the in-place and moved charges are those of `InPlace` and `Moved`; a dropped pool lowers `num_pools` by one and `total_size` by `pool_size`, and otherwise only the pools change; `total_used` and the structure are kept |
| Arena.Realloc | TLSF/SDL_TLSF/sdl_tlsf.c:346-407 | a growing request that is too large returns NULL unchanged; otherwise the pool count grows by the granted proactive and recovery pools (only for a growing request), minus at most one pool freed by a move, and the id counter by the pools added; the pointer is exactly the core's answer: the first one, or the retry only for a growing request after the first failed; a failure keeps every earlier pool; `total_used` is never changed |
| Arena.ReallocCharges | TLSF/SDL_TLSF/sdl_tlsf.c:383-403 | after growth, an in-place answer shifts the holding pool's `used` by `block_size(new_ptr) - current_size`; a moved answer charges the old pool `-current_size` and the new pool `+block_size(new_ptr)`, and drops the old pool exactly when that left it at 0 with `num_pools > 1` |
| Arena.ReallocCounters | TLSF/SDL_TLSF/sdl_tlsf.c:346-407 | unless refused as too large, realloc leaves `pool_size` alone and keeps the grown instance's `num_pools` and `total_size`, or lowers them by one and `pool_size` when a move freed the old pool |
| Arena.ReallocPreservesSound | TLSF/SDL_TLSF/sdl_tlsf.c:346-407 | realloc keeps the structural invariant |
| Directory.Init | TLSF/SDL_TLSF/sdl_tlsf.c:31-48 | the counter restarts at 0; the stored instance is exactly `create_instance(bytes)` at the mapping, and it is both base and active, or both are NULL when the mapping fails; the directory invariant holds |
| Directory.SetInstance | TLSF/SDL_TLSF/sdl_tlsf.c:127-131 | only the active handle changes; setting a live handle or NULL keeps the directory invariant |
| Directory.RebaseInstance | TLSF/SDL_TLSF/sdl_tlsf.c:133-142 | only the active handle changes, to the base, keeping the directory invariant |
| Directory.SwitchRoundTrip | TLSF/SDL_TLSF/sdl_tlsf.c:123-142 | get after set returns the handle set; setting the handle rebase returned undoes the rebase |
| Directory.FreePoolIn | TLSF/SDL_TLSF/sdl_tlsf.c:516-551 | removes pool k from its owner's order; with no active instance it dereferences NULL (None) |
| Directory.FreePoolInActive | TLSF/SDL_TLSF/sdl_tlsf.c:525-543 | on the active instance it is exactly `Arena.FreePool` |
| Directory.FreePoolInOther | TLSF/SDL_TLSF/sdl_tlsf.c:525-543 | on another instance only the neighbours are relinked; the active instance's `num_pools` and `total_size` drop instead |
| Directory.StripPoolsSound | TLSF/SDL_TLSF/sdl_tlsf.c:151-159 | stripping an instance down to its header keeps it sound, leaves one pool with `num_pools == 1`, and lowers `total_size` by `pool_size` per removed pool, mod 2^64 |
| Directory.Strip | TLSF/SDL_TLSF/sdl_tlsf.c:153-159 | frees pools from the tail until one is left; fails only with no active instance and more than one pool |
| Directory.StripActive | TLSF/SDL_TLSF/sdl_tlsf.c:153-159 | destroying the active instance strips exactly that instance |
| Directory.StripOther | TLSF/SDL_TLSF/sdl_tlsf.c:153-159 | destroying another instance lowers the ACTIVE instance's `num_pools` by n-1 and `total_size` by (n-1)·`pool_size`, mod 2^64 |
| Directory.StripOtherKeeps | TLSF/SDL_TLSF/sdl_tlsf.c:153-159 | while the owner's counters, the active pool list and third instances stay unchanged |
| Directory.StripFrame | TLSF/SDL_TLSF/sdl_tlsf.c:153-159 | the walk changes no instance other than the destroyed one and the active one |
| Directory.DestroyPools | TLSF/SDL_TLSF/sdl_tlsf.c:151-159 | the loop from the tail, reading `prev` before each free and stopping at NULL or the header, performs exactly the frees of `Strip` |
| Directory.DestroyInstance | TLSF/SDL_TLSF/sdl_tlsf.c:144-187 | NULL is refused unchanged; the walk dereferences NULL (None) exactly when there is no active instance and the victim has more than one pool; otherwise the instance disappears, active and base become NULL when they named it and are otherwise unchanged, and every surviving instance except the active one keeps its value |
| Directory.DestroyActiveKeepsOthers | TLSF/SDL_TLSF/sdl_tlsf.c:176-181 | destroying the active instance keeps the directory invariant and leaves every other instance unchanged |
| Directory.MallocIn | TLSF/SDL_TLSF/sdl_tlsf.c:211-264 | malloc works on the active instance only, dereferences NULL without one, advances the id counter by at most two, and its new instance, counter and pointer are exactly those of `Arena.Malloc` |
| Directory.FreeIn | TLSF/SDL_TLSF/sdl_tlsf.c:266-297 | free fails exactly when there is no active instance or no pool of it holds the pointer; otherwise only the active instance changes, and it becomes exactly `Arena.Free`'s result |
| Directory.CreateIn | TLSF/SDL_TLSF/sdl_tlsf.c:64-121 | a failed mapping leaves the directory unchanged and returns NULL; otherwise the handle is the mapping address, exactly that instance is added with one empty pool, `num_pools == 1`, `total_size == pool_size` and `total_used == 0`, and every other instance, active, base and the counter are unchanged |
| Directory.CreateKeepsWorldWf | TLSF/SDL_TLSF/sdl_tlsf.c:64-121 | creating an instance at a non-NULL mapping keeps the directory invariant |
| Directory.CreateThenDestroy | TLSF/SDL_TLSF/sdl_tlsf.c:64-187 | creating an instance at a fresh address and destroying it restores the directory exactly |
| Directory.MallocKeepsWorldWf | TLSF/SDL_TLSF/sdl_tlsf.c:211-264 | malloc keeps every instance well formed, with ids below the shared counter |
| Directory.FreeKeepsWorldWf | TLSF/SDL_TLSF/sdl_tlsf.c:266-297 | free keeps the directory invariant |
| Findings.CreateIsSized | TLSF/SDL_TLSF/sdl_tlsf.c:114 | a new instance's `total_size` is the sum of its pools' `bytes` |
| Findings.AddThenFreeDrifts | TLSF/SDL_TLSF/sdl_tlsf.c:509-543 | adding a pool and freeing it restores the pools but leaves `total_size` 88 bytes higher |
| Findings.AddPoolBreaksSized | TLSF/SDL_TLSF/sdl_tlsf.c:509 | one added pool makes `total_size` differ from the pools' capacity |
| Findings.AddPoolFixed | TLSF/SDL_TLSF/sdl_tlsf.c:455-514 | the corrected add changes the pools exactly as `add_pool` does and adds `pool_size` to `total_size` |
| Findings.FixedAddKeepsSized | TLSF/SDL_TLSF/sdl_tlsf.c:509 | the corrected add keeps `total_size == Σ bytes` |
| Findings.FreePoolKeepsSized | TLSF/SDL_TLSF/sdl_tlsf.c:543 | `free_pool` as written keeps `total_size == Σ bytes` |
| Findings.FixedAddThenFreeRestores | TLSF/SDL_TLSF/sdl_tlsf.c:509-543 | with the correction, add then free restores `total_size` exactly |
| Findings.ReallocUnbalances | TLSF/SDL_TLSF/sdl_tlsf.c:384-403 | `realloc(NULL, 100)` on a fresh instance charges the pool 112 bytes and leaves `total_used` at 0 |
| Findings.Settle | TLSF/SDL_TLSF/sdl_tlsf.c:384-403 | moving a pool's `used` and `total_used` by the same amount keeps the structure and the balance |
| Findings.MovedFixed | TLSF/SDL_TLSF/sdl_tlsf.c:384-396 | the corrected moved case keeps the full invariant |
| Findings.ReallocFixed | TLSF/SDL_TLSF/sdl_tlsf.c:346-407 | the corrected realloc returns the same pointer as the source |
| Findings.ReallocFixedPreservesWf | TLSF/SDL_TLSF/sdl_tlsf.c:346-407 | the corrected realloc keeps `total_used == Σ used` |
| Findings.DestroyOtherBreaksActive | TLSF/SDL_TLSF/sdl_tlsf.c:533-543 | destroying a non-active instance with two or more pools leaves the active instance with a `num_pools` that no longer counts its pools |
| Findings.FreePoolOf | TLSF/SDL_TLSF/sdl_tlsf.c:516-551 | the corrected `free_pool` changes only the owning instance |
| Findings.FreePoolOfAgrees | TLSF/SDL_TLSF/sdl_tlsf.c:525-543 | it equals the source on the active instance and keeps the owner sound |
| Findings.StripFixed | TLSF/SDL_TLSF/sdl_tlsf.c:153-159 | the corrected walk changes no instance but the one destroyed |
| Findings.DestroyFixed | TLSF/SDL_TLSF/sdl_tlsf.c:144-187 | the corrected destroy removes the instance, leaves every other one as it was, and clears the active and base handles exactly when they named it |
| Findings.DestroyFixedKeepsWorldWf | TLSF/SDL_TLSF/sdl_tlsf.c:144-187 | the corrected destroy keeps the directory invariant for any instance |
| Findings.DestroyFixedAgrees | TLSF/SDL_TLSF/sdl_tlsf.c:144-187 | on the active instance the corrected destroy equals the source |
| Findings.FreeDropsFirstPool | TLSF/SDL_TLSF/sdl_tlsf.c:287-293 | with two or more pools, freeing the last block of the first pool removes it and makes the second pool the header |
| Findings.FreeFixed | TLSF/SDL_TLSF/sdl_tlsf.c:266-297 | the corrected free resolves and charges the same as the source |
| Findings.FreeFixedKeepsHeader | TLSF/SDL_TLSF/sdl_tlsf.c:287-293 | the corrected free keeps the invariant and the first pool as header |

## Left out

- `mmap`, `munmap` and the Valgrind client requests are operating-system and foreign calls. A mapping is a `Grant` parameter, and unmapping is not modelled.
- The SDL mutex is left out: every public call is one atomic transition.
- `SDL_Log` and `SDL_LogCritical` output is left out.
- `SDL_SetMemoryFunctions` registration, `sdl_tlsf_init` (which only passes the 16 MiB default to `init_with_size`) and `sdl_tlsf_quit` are left out.
- The TLSF core is left out: `tlsf_malloc`, `tlsf_calloc`, `tlsf_realloc`, `tlsf_free`, `tlsf_block_size`, `tlsf_add_pool`, `tlsf_remove_pool`, `tlsf_create_with_pool` and `tlsf_check`. Its source is not part of this model, so its answers are parameters.
- Memory contents are left out: calloc's zeroing and realloc's copy happen inside the core.
- `sdl_tlsf_free_pool_mem` (lines 553-570) is left out. It unregisters and unmaps the pool, using the active instance's `pool_size` and core.
- `sdl_tlsf_print_instance`, `sdl_tlsf_check_active_instance` and `sdl_tlsf_check_pool` are left out: they only log or forward to the core.
- Destroy's final `munmap` of the instance mapping and its conditional unlock are left out. Only the removal of the instance and the nulling of active/base are modelled.
- Directory.Init: models the first initialisation of a process. A repeated `init_with_size` resets only the counter, base and active (lines 33, 39-40) and leaves earlier instances mapped; the model starts from an empty directory instead.
- `pool_id_counter` is a `size_t` in the source but a `nat` here. Its wrap-around after 2^64 pools is not modelled.
- Arena.ReallocPreservesSound: states only the structural invariant, not `total_used == Σ used`. The source does not keep that balance across realloc (Finding 2). `Findings.ReallocFixedPreservesWf` proves it for the corrected realloc.
- Arena.MallocPreservesWf: assumes the core returns addresses inside the instance's pools (`Honest`) and that new mappings are fresh (`FreshGrants`). Neither is checked by the source.
- Arena.Free: a pointer no pool holds (NULL included) yields None. This stands for the NULL-pool dereference at line 280; the crash itself is not modelled further.
- Directory.FreePoolIn: None stands for the NULL dereference when no instance is active. The same holds for `MallocIn` and `FreeIn`.

## Findings

| source | as written | input that shows it | evidently intended | confidence | as-written member | corrected member |
|---|---|---|---|---|---|---|
| TLSF/SDL_TLSF/sdl_tlsf.c:509 | `add_pool` adds `alloc_size` (pool + record + overhead) to `total_size`, while `free_pool` subtracts only `pool_size` and creation sets `total_size = pool_size` | any instance: add a pool, then free it; the pools are back as they were but `total_size` is 88 bytes higher, and each cycle adds 88 more | `total_size` is the pools' capacity, so add `pool_size` | medium, not executed | Findings.AddThenFreeDrifts | Findings.FixedAddThenFreeRestores |
| TLSF/SDL_TLSF/sdl_tlsf.c:384-403 | realloc moves `used` between pools but never updates `total_used` | fresh instance, `pool_size` 1000; `realloc(NULL, 100)` placed as a 112-byte block: the pool's `used` is 112 and `total_used` is 0 | `total_used` changes by the same amounts as the pools' `used`, so `total_used == Σ used` | high, not executed | Findings.ReallocUnbalances | Findings.ReallocFixedPreservesWf |
| TLSF/SDL_TLSF/sdl_tlsf.c:533-543 | `free_pool` updates header, tail, `num_pools` and `total_size` of the ACTIVE instance, even when the pool belongs to the instance being destroyed | two instances, the non-active one with 2 pools: destroying it leaves the active instance's `num_pools` one lower than its pool count | every update goes to the instance that owns the pool | high, not executed | Findings.DestroyOtherBreaksActive | Findings.DestroyFixedKeepsWorldWf |
| TLSF/SDL_TLSF/sdl_tlsf.c:287-293 | free removes any pool whose `used` reaches 0 when `num_pools > 1`, the first pool included, although it shares the instance's mapping and the destroy walk treats the header as that pool | instance with 2 pools; free the only block of the first pool: the first pool is removed and the second becomes the header | the first pool stays until the instance is destroyed | medium, not executed | Findings.FreeDropsFirstPool | Findings.FreeFixedKeepsHeader |

=== FILE: arena.dfy ===
/** One allocator instance of the SDL arena layer: its pool list, its
    counters, and the public calls that run against the active instance
    (TLSF/SDL_TLSF/sdl_tlsf.c). The TLSF core that places blocks inside the
    pools is not modelled; its answers arrive as parameters: whether a fresh
    mapping was obtained and registered, which address an allocation call
    returned (NULL for failure), and `tlsf_block_size` as a function. */
module Arena {
  import opened Common
  import opened PoolList

  /** `tlsf_pool_overhead()` of the core on a 64-bit build. */
  const POOL_OVERHEAD: Size := 16
  /** `sizeof(tlsf_pool)`: the bookkeeping record in front of each pool. */
  const POOL_RECORD: Size := 72
  /** `sizeof(tlsf_instance)`: the control block in front of the first pool. */
  const INSTANCE_RECORD: Size := 56

  datatype Instance = Instance(
    pools: seq<Pool>,     // header-to-tail order
    links: Links,         // header, tail and the records' prev/next pointers
    numPools: Size,
    poolSize: Size,       // bytes requested for every pool
    totalSize: Size,
    totalUsed: Size)

  /** What the operating system and the core answer when a pool is added:
      `mmap` failed, the core refused the region, or the region at `mem`. */
  datatype Grant = MapFailed | Rejected | Mapped(mem: Addr)

  /** The core's answers during one allocation call: the grant for the
      growth made before asking, the grant for the growth made after a
      failed attempt, and the addresses returned by the first and the
      second attempt (NULL for failure). */
  datatype CoreEnv = CoreEnv(proactive: Grant, recovery: Grant, first: Addr, retry: Addr)

  /** The instance after a call, the pool id counter, and the pointer returned. */
  datatype Outcome = Outcome(inst: Instance, counter: nat, ptr: Addr)

  // ---------------------------------------------------------------------
  // Invariants

  /** Every pool is laid out as the source lays it out: record, then
      `poolSize` usable bytes. */
  predicate Layout(ps: seq<Pool>, poolSize: Size)
  {
    forall i :: 0 <= i < |ps| ==>
      && ps[i].bytes == poolSize
      && ps[i].start == ps[i].rec + POOL_RECORD
      && ps[i].end == ps[i].start + poolSize
  }

  /** Two pools occupy separate memory, record included. */
  predicate Apart(p: Pool, q: Pool)
  {
    p.end < q.rec || q.end < p.rec
  }

  predicate Disjoint(ps: seq<Pool>)
  {
    forall i, j :: 0 <= i < j < |ps| ==> Apart(ps[i], ps[j])
  }

  /** Pool ids grow from header to tail. */
  predicate IdsAscend(ps: seq<Pool>)
  {
    forall i, j :: 0 <= i < j < |ps| ==> ps[i].id < ps[j].id
  }

  /** No pool carries an id the global counter has not handed out yet. */
  predicate IdsBelow(ps: seq<Pool>, counter: nat)
  {
    forall i :: 0 <= i < |ps| ==> ps[i].id <= counter
  }

  /** The structural invariant: a non-empty list whose pointers describe the
      pool order, `num_pools` counting it, and pools that do not overlap. */
  predicate Sound(a: Instance)
  {
    && 1 <= |a.pools|
    && a.numPools == |a.pools| % WORD
    && Shape(a.links, Refs(a.pools))
    && Layout(a.pools, a.poolSize)
    && Disjoint(a.pools)
    && IdsAscend(a.pools)
  }

  /** `total_used` is the sum of the pools' `used`, in `size_t` arithmetic. */
  predicate Balanced(a: Instance)
  {
    a.totalUsed == Sum(Used(a.pools)) % WORD
  }

  predicate Wf(a: Instance)
  {
    Sound(a) && Balanced(a)
  }

  /** Bytes `sdl_tlsf_add_pool` maps for one pool (line 460, in `size_t`). */
  function AllocSize(poolSize: Size): Size
  {
    Add(Add(poolSize, POOL_RECORD), POOL_OVERHEAD)
  }

  /** The mapping at `mem` is fresh: it overlaps none of the pools `ps`. */
  predicate Fresh(ps: seq<Pool>, poolSize: Size, mem: Addr)
  {
    forall i :: 0 <= i < |ps| ==>
      ps[i].end < mem || mem + poolSize + POOL_RECORD + POOL_OVERHEAD <= ps[i].rec
  }

  /** The pool `sdl_tlsf_add_pool` builds in the mapping at `mem`. */
  function NewPool(id: nat, mem: Addr, poolSize: Size): Pool
  {
    Pool(id, mem, mem + POOL_RECORD, mem + POOL_RECORD + poolSize, poolSize, 0)
  }

  /** The pools with pool `k`'s `used` replaced by `v`. */
  function SetUsed(ps: seq<Pool>, k: nat, v: Size): (r: seq<Pool>)
    requires k < |ps|
    ensures |r| == |ps| && r[k].used == v
    ensures forall j :: 0 <= j < |ps| && j != k ==> r[j] == ps[j]
  {
    ps[k := ps[k].(used := v)]
  }

  /** Changing a pool's usage leaves the list, the layout and the ids alone. */
  lemma SetUsedKeeps(ps: seq<Pool>, k: nat, v: Size, poolSize: Size, counter: nat)
    requires k < |ps|
    ensures Refs(SetUsed(ps, k, v)) == Refs(ps)
    ensures Layout(ps, poolSize) ==> Layout(SetUsed(ps, k, v), poolSize)
    ensures Disjoint(ps) ==> Disjoint(SetUsed(ps, k, v))
    ensures IdsAscend(ps) ==> IdsAscend(SetUsed(ps, k, v))
    ensures IdsBelow(ps, counter) ==> IdsBelow(SetUsed(ps, k, v), counter)
  {
    var r := SetUsed(ps, k, v);
    assert forall j :: 0 <= j < |ps| ==> r[j].rec == ps[j].rec && r[j].end == ps[j].end && r[j].id == ps[j].id;
  }

  /** Dropping pool `k` keeps the others apart and their ids ascending. */
  lemma RemoveKeeps(ps: seq<Pool>, k: nat, poolSize: Size, counter: nat)
    requires k < |ps|
    ensures var ps' := ps[..k] + ps[k + 1..];
      && (Layout(ps, poolSize) ==> Layout(ps', poolSize))
      && (Disjoint(ps) ==> Disjoint(ps'))
      && (IdsAscend(ps) ==> IdsAscend(ps'))
      && (IdsBelow(ps, counter) ==> IdsBelow(ps', counter))
  {
    var ps' := ps[..k] + ps[k + 1..];
    assert forall i :: 0 <= i < |ps'| ==> ps'[i] == ps[if i < k then i else i + 1];
  }

  /** An increment of `num_pools` keeps it equal to the pool count modulo the word. */
  lemma CountUp(n: nat)
    ensures Add(n % WORD, 1) == (n + 1) % WORD
  {
    ModAddRight(1, n);
  }

  /** A decrement of `num_pools` keeps it equal to the pool count modulo the word. */
  lemma CountDown(n: nat)
    requires 1 <= n
    ensures Sub(n % WORD, 1) == (n - 1) % WORD
  {
    ModAddRight(-1, n);
  }

  // ---------------------------------------------------------------------
  // Instance creation

  /** `sdl_tlsf_create_instance`: one mapping holds the instance record, the
      first pool's record and the first pool; `mapping` is None when `mmap`
      fails. The first pool's id is 0 (the record is zeroed). */
  function CreateInstance(poolSize: Size, mapping: Option<Addr>): (r: Option<Instance>)
    ensures r.None? <==> mapping.None?
    ensures r.Some? ==>
      var a := r.value;
      && Wf(a)
      && IdsBelow(a.pools, 0)
      && |a.pools| == 1
      && a.links.header == a.links.tail == Some(a.pools[0].rec)
      && a.pools[0].used == 0
      && a.pools[0].start == mapping.value + INSTANCE_RECORD + POOL_RECORD
      && a.pools[0].end == a.pools[0].start + poolSize
      && a.numPools == 1
      && a.totalSize == poolSize
      && a.totalUsed == 0
  {
    match mapping
    case None => None
    case Some(mem) =>
      var rec := mem + INSTANCE_RECORD;
      var p := Pool(0, rec, rec + POOL_RECORD, rec + POOL_RECORD + poolSize, poolSize, 0);
      var l := Links(Some(rec), Some(rec), map[rec := None], map[rec := None]);
      assert Used([p]) == [0];
      assert Refs([p]) == [rec];
      Some(Instance([p], l, 1, poolSize, poolSize, 0))
  }

  // ---------------------------------------------------------------------
  // Pool list maintenance

  /** `sdl_tlsf_get_pool`: the first pool, scanning from the header, whose
      inclusive range holds `addr`; the state is not modified. */
  function GetPool(a: Instance, addr: Addr): (r: Option<nat>)
    ensures r.Some? ==> r.value < |a.pools| && Holds(a.pools[r.value], addr)
    ensures r.Some? ==> forall j :: 0 <= j < r.value ==> !Holds(a.pools[j], addr)
    ensures r.None? ==> forall j :: 0 <= j < |a.pools| ==> !Holds(a.pools[j], addr)
  {
    FindPool(a.pools, addr)
  }

  /** The scan of `sdl_tlsf_get_pool` follows `next` from the header, which
      visits exactly the pools in list order; since pools do not overlap, an
      address held by a pool resolves to that pool and to no other. */
  lemma GetPoolResolvesOwner(a: Instance, addr: Addr, j: nat)
    requires Sound(a)
    requires j < |a.pools| && Holds(a.pools[j], addr)
    ensures Walk(a.links, a.links.header, |a.pools|) == Refs(a.pools)
    ensures GetPool(a, addr) == Some(j)
  {
    WalkFromHeader(a.links, Refs(a.pools));
  }

  /** `sdl_tlsf_add_pool`: on a fresh mapping that the core accepts, one pool
      with `used == 0` and the next id is linked at the tail; on either
      failure nothing changes. */
  function AddPool(a: Instance, counter: nat, g: Grant): (r: (Instance, nat))
    ensures !g.Mapped? ==> r == (a, counter)
    ensures g.Mapped? ==>
      && r.1 == counter + 1
      && |r.0.pools| == |a.pools| + 1
      && r.0.pools[..|a.pools|] == a.pools
      && r.0.pools[|a.pools|].used == 0
      && r.0.pools[|a.pools|].id == counter + 1
      && r.0.pools[|a.pools|].start == g.mem + POOL_RECORD
      && r.0.pools[|a.pools|].end == g.mem + POOL_RECORD + a.poolSize
      && r.0.numPools == Add(a.numPools, 1)
      && r.0.totalSize == Add(a.totalSize, AllocSize(a.poolSize))
      && r.0.totalUsed == a.totalUsed
      && r.0.poolSize == a.poolSize
  {
    match g
    case MapFailed => (a, counter)
    case Rejected => (a, counter)
    case Mapped(mem) =>
      var p := NewPool(counter + 1, mem, a.poolSize);
      assert (a.pools + [p])[..|a.pools|] == a.pools;
      (a.(pools := a.pools + [p],
          links := LinkTail(a.links, mem),
          numPools := Add(a.numPools, 1),
          totalSize := Add(a.totalSize, AllocSize(a.poolSize))),
       counter + 1)
  }

  /** Appending the pool built in a fresh mapping keeps the pools laid out,
      apart and in ascending id order, and its record is a new address. */
  lemma AppendKeeps(ps: seq<Pool>, poolSize: Size, counter: nat, mem: Addr)
    requires Layout(ps, poolSize) && Disjoint(ps) && IdsAscend(ps) && IdsBelow(ps, counter)
    requires Fresh(ps, poolSize, mem)
    ensures var ps' := ps + [NewPool(counter + 1, mem, poolSize)];
      && Layout(ps', poolSize) && Disjoint(ps') && IdsAscend(ps') && IdsBelow(ps', counter + 1)
      && mem !in Refs(ps)
      && Refs(ps') == Refs(ps) + [mem]
  {
    var ps' := ps + [NewPool(counter + 1, mem, poolSize)];
    assert forall i :: 0 <= i < |ps| ==> ps'[i] == ps[i];
    assert Disjoint(ps') by {
      forall i, j | 0 <= i < j < |ps'|
        ensures Apart(ps'[i], ps'[j])
      {
      }
    }
    assert mem !in Refs(ps) by {
      forall i | 0 <= i < |ps|
        ensures ps[i].rec != mem
      {
      }
    }
  }

  /** Adding a pool keeps the invariant: the new pool is the tail, its `prev`
      is the old tail, the old tail's `next` is the new pool, and the usage
      total is unchanged because the new pool is empty. */
  lemma AddPoolPreservesWf(a: Instance, counter: nat, g: Grant)
    requires Sound(a) && IdsBelow(a.pools, counter)
    requires g.Mapped? ==> Fresh(a.pools, a.poolSize, g.mem)
    ensures var r := AddPool(a, counter, g);
      && Sound(r.0)
      && IdsBelow(r.0.pools, r.1)
      && (Balanced(a) ==> Balanced(r.0))
    ensures g.Mapped? ==>
      var l := AddPool(a, counter, g).0.links;
      && l.header == a.links.header
      && l.tail == Some(g.mem)
      && Get(l.prev, g.mem) == a.links.tail
      && Get(l.next, a.links.tail.value) == Some(g.mem)
  {
    if g.Mapped? {
      AddPoolSound(a, counter, g.mem);
      AddPoolBalanced(a, counter, g.mem);
    }
  }

  /** The structural half of `AddPoolPreservesWf`. */
  lemma AddPoolSound(a: Instance, counter: nat, mem: Addr)
    requires Sound(a) && IdsBelow(a.pools, counter)
    requires Fresh(a.pools, a.poolSize, mem)
    ensures var r := AddPool(a, counter, Mapped(mem)).0;
      && Sound(r)
      && IdsBelow(r.pools, counter + 1)
      && r.links.header == a.links.header
      && r.links.tail == Some(mem)
      && Get(r.links.prev, mem) == a.links.tail
      && Get(r.links.next, a.links.tail.value) == Some(mem)
  {
    assert AddPool(a, counter, Mapped(mem)).0.pools == a.pools + [NewPool(counter + 1, mem, a.poolSize)];
    AppendKeeps(a.pools, a.poolSize, counter, mem);
    LinkTailShape(a.links, Refs(a.pools), mem);
    CountUp(|a.pools|);
  }

  /** The usage half of `AddPoolPreservesWf`: the new pool is empty. */
  lemma AddPoolBalanced(a: Instance, counter: nat, mem: Addr)
    ensures Balanced(a) ==> Balanced(AddPool(a, counter, Mapped(mem)).0)
  {
    var ps := a.pools + [NewPool(counter + 1, mem, a.poolSize)];
    assert AddPool(a, counter, Mapped(mem)).0.pools == ps;
    assert Used(ps) == Used(a.pools) + [0];
    SumAppend(Used(a.pools), 0);
  }

  /** `sdl_tlsf_free_pool` on a pool of the active instance: the pool is
      unlinked, the others keep their order, `num_pools` drops by one and
      `total_size` by `pool_size`. */
  function FreePool(a: Instance, k: nat): (r: Instance)
    requires k < |a.pools|
    ensures |r.pools| == |a.pools| - 1
    ensures forall j :: 0 <= j < k ==> r.pools[j] == a.pools[j]
    ensures forall j :: k <= j < |r.pools| ==> r.pools[j] == a.pools[j + 1]
    ensures r.numPools == Sub(a.numPools, 1)
    ensures r.totalSize == Sub(a.totalSize, a.poolSize)
    ensures r.totalUsed == a.totalUsed && r.poolSize == a.poolSize
  {
    a.(pools := a.pools[..k] + a.pools[k + 1..],
       links := Unlink(a.links, a.pools[k].rec),
       numPools := Sub(a.numPools, 1),
       totalSize := Sub(a.totalSize, a.poolSize))
  }

  /** The structural half of `FreePoolPreservesWf`. */
  lemma FreePoolSound(a: Instance, k: nat, counter: nat)
    requires Sound(a) && 2 <= |a.pools| && k < |a.pools|
    requires IdsBelow(a.pools, counter)
    ensures Sound(FreePool(a, k)) && IdsBelow(FreePool(a, k).pools, counter)
  {
    var ps := a.pools;
    var ps' := ps[..k] + ps[k + 1..];
    var r := FreePool(a, k);
    assert r.pools == ps';
    ProjectRemove(ps, k);
    UnlinkShape(a.links, Refs(ps), k);
    RemoveKeeps(ps, k, a.poolSize, counter);
    CountDown(|ps|);
  }

  /** Removing one of at least two pools keeps the invariant: header and
      tail move when the removed pool was an endpoint, and the usage total
      still balances when the removed pool was empty. */
  lemma FreePoolPreservesWf(a: Instance, k: nat, counter: nat)
    requires Sound(a) && 2 <= |a.pools| && k < |a.pools|
    requires IdsBelow(a.pools, counter)
    ensures Sound(FreePool(a, k))
    ensures IdsBelow(FreePool(a, k).pools, counter)
    ensures Balanced(a) && a.pools[k].used == 0 ==> Balanced(FreePool(a, k))
    ensures k == 0 ==> FreePool(a, k).links.header == Some(a.pools[1].rec)
    ensures k == |a.pools| - 1 ==> FreePool(a, k).links.tail == Some(a.pools[k - 1].rec)
  {
    FreePoolSound(a, k, counter);
    FreePoolBalanced(a, k);
    FreePoolEnds(a, k);
  }

  /** The usage half of `FreePoolPreservesWf`. */
  lemma FreePoolBalanced(a: Instance, k: nat)
    requires k < |a.pools|
    ensures Balanced(a) && a.pools[k].used == 0 ==> Balanced(FreePool(a, k))
  {
    if Balanced(a) && a.pools[k].used == 0 {
      assert FreePool(a, k).pools == a.pools[..k] + a.pools[k + 1..];
      ProjectRemove(a.pools, k);
      SumRemove(Used(a.pools), k);
    }
  }

  /** The endpoint half of `FreePoolPreservesWf`. */
  lemma FreePoolEnds(a: Instance, k: nat)
    requires Shape(a.links, Refs(a.pools)) && 2 <= |a.pools| && k < |a.pools|
    ensures k == 0 ==> FreePool(a, k).links.header == Some(a.pools[1].rec)
    ensures k == |a.pools| - 1 ==> FreePool(a, k).links.tail == Some(a.pools[k - 1].rec)
  {
    var rs := Refs(a.pools);
    UnlinkEnds(a.links, rs, k);
    var rs' := rs[..k] + rs[k + 1..];
    if k == 0 {
      assert rs'[0] == rs[1];
    }
    if k == |rs| - 1 {
      assert rs'[|rs'| - 1] == rs[k - 1];
    }
  }

  // ---------------------------------------------------------------------
  // Allocation

  /** Bytes of capacity not yet in use, as the source computes it. */
  function Headroom(a: Instance): Size
  {
    Sub(a.totalSize, a.totalUsed)
  }

  /** The fail-fast test of malloc and realloc: the request would not fit in
      one pool after the core's per-pool overhead. */
  predicate TooLarge(a: Instance, bytes: Size)
  {
    bytes >= Sub(a.poolSize, POOL_OVERHEAD)
  }

  /** 1 when a growth step was taken and the mapping was granted. */
  function Added(taken: bool, g: Grant): nat
  {
    if taken && g.Mapped? then 1 else 0
  }

  /** The grow-then-retry-once policy shared by malloc, calloc and realloc:
      add a pool first when `short`, ask the core; if it fails and a retry
      is allowed, add exactly one more pool and ask once more. */
  function GrowThenRetry(a: Instance, counter: nat, short: bool, mayRetry: bool, env: CoreEnv): (r: Outcome)
    ensures |r.inst.pools| == |a.pools| + Added(short, env.proactive) + Added(env.first == NULL && mayRetry, env.recovery)
    ensures r.inst.pools[..|a.pools|] == a.pools
    ensures forall j :: |a.pools| <= j < |r.inst.pools| ==> r.inst.pools[j].used == 0
    ensures env.first != NULL ==> r.ptr == env.first
    ensures env.first == NULL ==> r.ptr == (if mayRetry then env.retry else NULL)
    ensures r.inst.totalUsed == a.totalUsed && r.inst.poolSize == a.poolSize
    ensures r.counter == counter + (|r.inst.pools| - |a.pools|)
  {
    var g1 := if short then AddPool(a, counter, env.proactive) else (a, counter);
    if env.first != NULL || !mayRetry then
      Outcome(g1.0, g1.1, env.first)
    else
      var g2 := AddPool(g1.0, g1.1, env.recovery);
      assert g2.0.pools[..|a.pools|] == g1.0.pools[..|a.pools|];
      Outcome(g2.0, g2.1, env.retry)
  }
  /** Each pool the growth steps add raises `num_pools` by one and
      `total_size` by `alloc_size` (line 509), with wrap-around; nothing
      else in the instance's counters moves. */
  lemma GrowThenRetryCounters(a: Instance, counter: nat, short: bool, mayRetry: bool, env: CoreEnv)
    ensures var r := GrowThenRetry(a, counter, short, mayRetry, env);
      var m := |r.inst.pools| - |a.pools|;
      && r.inst.numPools == AddTimes(a.numPools, 1, m)
      && r.inst.totalSize == AddTimes(a.totalSize, AllocSize(a.poolSize), m)
      && r.inst.poolSize == a.poolSize && r.inst.totalUsed == a.totalUsed
  {
    var g1 := if short then AddPool(a, counter, env.proactive) else (a, counter);
    var m1 := |g1.0.pools| - |a.pools|;
    assert g1.0.numPools == AddTimes(a.numPools, 1, m1);
    assert g1.0.totalSize == AddTimes(a.totalSize, AllocSize(a.poolSize), m1);
  }



  /** The two mappings one call may receive are fresh, and apart from each other. */
  predicate FreshGrants(a: Instance, env: CoreEnv)
  {
    var span := a.poolSize + POOL_RECORD + POOL_OVERHEAD;
    && (env.proactive.Mapped? ==> Fresh(a.pools, a.poolSize, env.proactive.mem))
    && (env.recovery.Mapped? ==> Fresh(a.pools, a.poolSize, env.recovery.mem))
    && (env.proactive.Mapped? && env.recovery.Mapped? ==>
          env.proactive.mem + span <= env.recovery.mem || env.recovery.mem + span <= env.proactive.mem)
  }

  lemma GrowThenRetryPreservesWf(a: Instance, counter: nat, short: bool, mayRetry: bool, env: CoreEnv)
    requires Sound(a) && IdsBelow(a.pools, counter)
    requires FreshGrants(a, env)
    ensures var r := GrowThenRetry(a, counter, short, mayRetry, env);
      && Sound(r.inst)
      && IdsBelow(r.inst.pools, r.counter)
      && (Balanced(a) ==> Balanced(r.inst))
  {
    var g1 := if short then AddPool(a, counter, env.proactive) else (a, counter);
    if short {
      AddPoolPreservesWf(a, counter, env.proactive);
    }
    if env.first == NULL && mayRetry && env.recovery.Mapped? {
      RecoveryStaysFresh(a, counter, short, env);
      AddPoolPreservesWf(g1.0, g1.1, env.recovery);
    }
  }

  /** The recovery mapping is still fresh after the proactive pool was added. */
  lemma RecoveryStaysFresh(a: Instance, counter: nat, short: bool, env: CoreEnv)
    requires FreshGrants(a, env) && env.recovery.Mapped?
    ensures var g1 := if short then AddPool(a, counter, env.proactive) else (a, counter);
      Fresh(g1.0.pools, g1.0.poolSize, env.recovery.mem)
  {
    var g1 := if short then AddPool(a, counter, env.proactive) else (a, counter);
    var mem := env.recovery.mem;
    forall i | 0 <= i < |g1.0.pools|
      ensures g1.0.pools[i].end < mem || mem + a.poolSize + POOL_RECORD + POOL_OVERHEAD <= g1.0.pools[i].rec
    {
      if i < |a.pools| {
        assert g1.0.pools[i] == g1.0.pools[..|a.pools|][i];
      }
    }
  }

  /** Lines 248-259 of malloc (327-338 of calloc): `total_used` grows by the
      block size first; then the block's pool is looked up and, when found,
      its `used` grows by the same amount. When the lookup fails NULL is
      returned and the block stays counted in `total_used` only. */
  function Account(o: Outcome, block: Size): (r: Outcome)
    ensures r.inst.totalUsed == Add(o.inst.totalUsed, block)
    ensures r.counter == o.counter && |r.inst.pools| == |o.inst.pools|
    ensures FindPool(o.inst.pools, o.ptr).None? ==> r.ptr == NULL && r.inst.pools == o.inst.pools
    ensures FindPool(o.inst.pools, o.ptr).Some? ==>
      var k := FindPool(o.inst.pools, o.ptr).value;
      && r.ptr == o.ptr
      && r.inst.pools == SetUsed(o.inst.pools, k, Add(o.inst.pools[k].used, block))
    ensures Sound(o.inst) ==> Sound(r.inst)
  {
    var i1 := o.inst.(totalUsed := Add(o.inst.totalUsed, block));
    match FindPool(i1.pools, o.ptr)
    case None => Outcome(i1, o.counter, NULL)
    case Some(k) =>
      var ps := SetUsed(i1.pools, k, Add(i1.pools[k].used, block));
      SetUsedKeeps(i1.pools, k, Add(i1.pools[k].used, block), i1.poolSize, 0);
      Outcome(i1.(pools := ps), o.counter, o.ptr)
  }

  /** Adding `delta` to one pool's `used` and to the total keeps them balanced. */
  lemma BumpBalanced(ps: seq<Pool>, k: nat, total: Size, delta: Size)
    requires k < |ps|
    requires total == Sum(Used(ps)) % WORD
    ensures Add(total, delta) == Sum(Used(SetUsed(ps, k, Add(ps[k].used, delta)))) % WORD
  {
    var u := ps[k].used;
    var S := Sum(Used(ps));
    var v := Add(u, delta);
    assert Used(SetUsed(ps, k, v)) == Used(ps)[k := v];
    SumUpdate(Used(ps), k, v);
    ShiftBalance(S, u, v, total, delta);
  }

  /** Subtracting `delta` from one pool's `used` and from the total keeps them balanced. */
  lemma DropBalanced(ps: seq<Pool>, k: nat, total: Size, delta: Size)
    requires k < |ps|
    requires total == Sum(Used(ps)) % WORD
    ensures Sub(total, delta) == Sum(Used(SetUsed(ps, k, Sub(ps[k].used, delta)))) % WORD
  {
    var u := ps[k].used;
    var S := Sum(Used(ps));
    var v := Sub(u, delta);
    assert Used(SetUsed(ps, k, v)) == Used(ps)[k := v];
    SumUpdate(Used(ps), k, v);
    ShiftBalance(S, u, v, total, -(delta as int));
  }

  /** Moving one summand `u` to `(u + d) mod 2^64` moves the sum, taken
      mod 2^64, by `d`. */
  lemma ShiftBalance(S: int, u: int, v: int, total: int, d: int)
    requires total == S % WORD && v == (u + d) % WORD
    ensures (total + d) % WORD == (S - u + v) % WORD
  {
    ModAddRight(S - u, u + d);
    ModAddRight(d, S);
  }

  /** A successful accounting keeps `total_used == Σ used`; a failed lookup
      breaks it whenever the block size is not a multiple of 2^64. */
  lemma AccountBalance(o: Outcome, block: Size)
    requires Balanced(o.inst)
    ensures FindPool(o.inst.pools, o.ptr).Some? ==> Balanced(Account(o, block).inst)
    ensures FindPool(o.inst.pools, o.ptr).None? && block != 0 ==> !Balanced(Account(o, block).inst)
  {
    match FindPool(o.inst.pools, o.ptr)
    case Some(k) =>
      BumpBalanced(o.inst.pools, k, o.inst.totalUsed, block);
    case None =>
  }

  /** Everything after the size check of malloc: grow when the headroom is
      short of `bytes`, ask the core with one retry, and account the block. */
  function Place(a: Instance, counter: nat, bytes: Size, env: CoreEnv, blockSize: Addr -> Size): (r: Outcome)
    ensures |r.inst.pools| == |a.pools| + Added(Headroom(a) < bytes, env.proactive) + Added(env.first == NULL, env.recovery)
    ensures r.counter == counter + (|r.inst.pools| - |a.pools|)
    ensures var p := if env.first != NULL then env.first else env.retry;
      && (r.ptr == NULL || r.ptr == p)
      && (p == NULL ==> r.ptr == NULL && r.inst.totalUsed == a.totalUsed)
      && (p != NULL ==> r.inst.totalUsed == Add(a.totalUsed, blockSize(p)))
    ensures var p := if env.first != NULL then env.first else env.retry;
      var g := GrowThenRetry(a, counter, Headroom(a) < bytes, true, env);
      r.ptr == (if p != NULL && FindPool(g.inst.pools, p).Some? then p else NULL)
    ensures var g := GrowThenRetry(a, counter, Headroom(a) < bytes, true, env);
      r.ptr != NULL ==>
        && FindPool(g.inst.pools, r.ptr).Some?
        && var k := FindPool(g.inst.pools, r.ptr).value;
           r.inst.pools[k].used == Add(g.inst.pools[k].used, blockSize(r.ptr))
    ensures var g := GrowThenRetry(a, counter, Headroom(a) < bytes, true, env);
      r.ptr == NULL ==> r.inst == g.inst.(totalUsed := r.inst.totalUsed)
    ensures var g := GrowThenRetry(a, counter, Headroom(a) < bytes, true, env);
      r.ptr != NULL ==>
        var k := FindPool(g.inst.pools, r.ptr).value;
        var b := blockSize(r.ptr);
        r.inst == g.inst.(pools := SetUsed(g.inst.pools, k, Add(g.inst.pools[k].used, b)), totalUsed := Add(g.inst.totalUsed, b))
    ensures var m := |r.inst.pools| - |a.pools|;
      && r.inst.numPools == AddTimes(a.numPools, 1, m)
      && r.inst.totalSize == AddTimes(a.totalSize, AllocSize(a.poolSize), m)
      && r.inst.poolSize == a.poolSize
  {
    var g := GrowThenRetry(a, counter, Headroom(a) < bytes, true, env);
    GrowThenRetryCounters(a, counter, Headroom(a) < bytes, true, env);
    Charge(g, blockSize)
  }

  /** Lines 248-263 after the core answered: a NULL answer changes nothing;
      otherwise `total_used` grows by the block size, and only a block that
      `get_pool` resolves is charged to its pool and returned. */
  function Charge(g: Outcome, blockSize: Addr -> Size): (r: Outcome)
    ensures r.counter == g.counter && |r.inst.pools| == |g.inst.pools|
    ensures r.ptr == (if g.ptr != NULL && FindPool(g.inst.pools, g.ptr).Some? then g.ptr else NULL)
    ensures g.ptr == NULL ==> r.inst.totalUsed == g.inst.totalUsed
    ensures g.ptr != NULL ==> r.inst.totalUsed == Add(g.inst.totalUsed, blockSize(g.ptr))
    ensures r.ptr == NULL ==> r.inst == g.inst.(totalUsed := r.inst.totalUsed)
    ensures r.ptr != NULL ==>
      var k := FindPool(g.inst.pools, r.ptr).value;
      var b := blockSize(r.ptr);
      r.inst == g.inst.(pools := SetUsed(g.inst.pools, k, Add(g.inst.pools[k].used, b)), totalUsed := Add(g.inst.totalUsed, b))
  {
    if g.ptr == NULL then g else Account(g, blockSize(g.ptr))
  }

  /** `sdl_tlsf_malloc`. A request that would not fit in one pool returns
      NULL and changes nothing. Otherwise at most two pools are added: one
      when the headroom is short of the request, one more when the core's
      first attempt fails; a second failure returns NULL. */
  function Malloc(a: Instance, counter: nat, bytes: Size, env: CoreEnv, blockSize: Addr -> Size): (r: Outcome)
    ensures TooLarge(a, bytes) ==> r == Outcome(a, counter, NULL)
    ensures !TooLarge(a, bytes) ==>
      && |r.inst.pools| == |a.pools| + Added(Headroom(a) < bytes, env.proactive) + Added(env.first == NULL, env.recovery)
      && (env.first == NULL && env.retry == NULL ==> r.ptr == NULL && r.inst.totalUsed == a.totalUsed)
      && (r.ptr != NULL ==> r.ptr == (if env.first != NULL then env.first else env.retry))
    ensures var p := if env.first != NULL then env.first else env.retry;
      var g := GrowThenRetry(a, counter, Headroom(a) < bytes, true, env);
      !TooLarge(a, bytes) ==> r.ptr == (if p != NULL && FindPool(g.inst.pools, p).Some? then p else NULL)
    ensures var m := |r.inst.pools| - |a.pools|;
      && r.inst.numPools == AddTimes(a.numPools, 1, m)
      && r.inst.totalSize == AddTimes(a.totalSize, AllocSize(a.poolSize), m)
      && r.inst.poolSize == a.poolSize
    ensures var g := GrowThenRetry(a, counter, Headroom(a) < bytes, true, env);
      !TooLarge(a, bytes) && r.ptr == NULL ==> r.inst == g.inst.(totalUsed := r.inst.totalUsed)
    ensures var g := GrowThenRetry(a, counter, Headroom(a) < bytes, true, env);
      r.ptr != NULL ==>
        && FindPool(g.inst.pools, r.ptr).Some?
        && var k := FindPool(g.inst.pools, r.ptr).value;
           var b := blockSize(r.ptr);
           r.inst == g.inst.(pools := SetUsed(g.inst.pools, k, Add(g.inst.pools[k].used, b)), totalUsed := Add(g.inst.totalUsed, b))
  {
    if TooLarge(a, bytes) then Outcome(a, counter, NULL)
    else Place(a, counter, bytes, env, blockSize)
  }

  /** The core's answers lie inside the pools of the instance that asked. */
  predicate Honest(a: Instance, counter: nat, bytes: Size, env: CoreEnv)
  {
    var g := GrowThenRetry(a, counter, Headroom(a) < bytes, true, env);
    g.ptr != NULL ==> FindPool(g.inst.pools, g.ptr).Some?
  }

  /** A successful malloc adds `block_size(ptr)` both to `total_used` and to
      the `used` of the pool that `get_pool(ptr)` resolves, so the invariant
      `total_used == Σ used` survives every malloc whose core answers are
      honest and whose mappings are fresh. */
  lemma MallocPreservesWf(a: Instance, counter: nat, bytes: Size, env: CoreEnv, blockSize: Addr -> Size)
    requires Wf(a) && IdsBelow(a.pools, counter)
    requires FreshGrants(a, env)
    requires Honest(a, counter, bytes, env)
    ensures var r := Malloc(a, counter, bytes, env, blockSize);
      && Wf(r.inst)
      && IdsBelow(r.inst.pools, r.counter)
    ensures var r := Malloc(a, counter, bytes, env, blockSize);
      r.ptr != NULL ==>
        var g := GrowThenRetry(a, counter, Headroom(a) < bytes, true, env);
        var k := GetPool(g.inst, r.ptr).value;
        && r.inst.totalUsed == Add(a.totalUsed, blockSize(r.ptr))
        && r.inst.pools[k].used == Add(g.inst.pools[k].used, blockSize(r.ptr))
  {
    if !TooLarge(a, bytes) {
      PlacePreservesWf(a, counter, bytes, env, blockSize);
    }
  }

  lemma PlacePreservesWf(a: Instance, counter: nat, bytes: Size, env: CoreEnv, blockSize: Addr -> Size)
    requires Wf(a) && IdsBelow(a.pools, counter)
    requires FreshGrants(a, env)
    requires Honest(a, counter, bytes, env)
    ensures var r := Place(a, counter, bytes, env, blockSize);
      && Wf(r.inst)
      && IdsBelow(r.inst.pools, r.counter)
    ensures var r := Place(a, counter, bytes, env, blockSize);
      r.ptr != NULL ==>
        var g := GrowThenRetry(a, counter, Headroom(a) < bytes, true, env);
        var k := GetPool(g.inst, r.ptr).value;
        && r.inst.totalUsed == Add(a.totalUsed, blockSize(r.ptr))
        && r.inst.pools[k].used == Add(g.inst.pools[k].used, blockSize(r.ptr))
  {
    var g := GrowThenRetry(a, counter, Headroom(a) < bytes, true, env);
    GrowThenRetryPreservesWf(a, counter, Headroom(a) < bytes, true, env);
    if g.ptr != NULL {
      var k := FindPool(g.inst.pools, g.ptr).value;
      AccountBalance(g, blockSize(g.ptr));
      SetUsedKeeps(g.inst.pools, k, Add(g.inst.pools[k].used, blockSize(g.ptr)), g.inst.poolSize, g.counter);
    }
  }

  /** `sdl_tlsf_calloc`: the same policy and accounting as malloc on the
      `size_t` product of the two arguments, but without malloc's test
      against the pool size. */
  function Calloc(a: Instance, counter: nat, nmemb: Size, size: Size, env: CoreEnv, blockSize: Addr -> Size): (r: Outcome)
    ensures !TooLarge(a, (nmemb * size) % WORD) ==> r == Malloc(a, counter, (nmemb * size) % WORD, env, blockSize)
    ensures |r.inst.pools| == |a.pools| + Added(Headroom(a) < (nmemb * size) % WORD, env.proactive) + Added(env.first == NULL, env.recovery)
  {
    Place(a, counter, (nmemb * size) % WORD, env, blockSize)
  }

  /** A successful calloc, like malloc, adds `block_size(ptr)` to
      `total_used` and to the resolved pool's `used`, keeping the invariant. */
  lemma CallocPreservesWf(a: Instance, counter: nat, nmemb: Size, size: Size, env: CoreEnv, blockSize: Addr -> Size)
    requires Wf(a) && IdsBelow(a.pools, counter)
    requires FreshGrants(a, env)
    requires Honest(a, counter, (nmemb * size) % WORD, env)
    ensures var r := Calloc(a, counter, nmemb, size, env, blockSize);
      && Wf(r.inst)
      && IdsBelow(r.inst.pools, r.counter)
    ensures var r := Calloc(a, counter, nmemb, size, env, blockSize);
      r.ptr != NULL ==>
        var g := GrowThenRetry(a, counter, Headroom(a) < (nmemb * size) % WORD, true, env);
        var k := GetPool(g.inst, r.ptr).value;
        && r.inst.totalUsed == Add(a.totalUsed, blockSize(r.ptr))
        && r.inst.pools[k].used == Add(g.inst.pools[k].used, blockSize(r.ptr))
  {
    PlacePreservesWf(a, counter, (nmemb * size) % WORD, env, blockSize);
  }

  /** Calloc reaches the core even with a request malloc refuses as larger
      than a pool: with one element of `size` bytes, a too-large request
      still grows the instance when the headroom is short. */
  lemma CallocSkipsSizeCheck(a: Instance, counter: nat, size: Size, env: CoreEnv, blockSize: Addr -> Size)
    requires TooLarge(a, size)
    requires Headroom(a) < size && env.proactive.Mapped?
    ensures Malloc(a, counter, size, env, blockSize).inst == a
    ensures |Calloc(a, counter, 1, size, env, blockSize).inst.pools| > |a.pools|
  {
    assert (1 * size) % WORD == size;
  }

  // ---------------------------------------------------------------------
  // Release

  /** `sdl_tlsf_free`: the owning pool's `used` and `total_used` both drop
      by `block_size(ptr)`; the pool is then removed if and only if its
      `used` reached 0 and more than one pool exists. A pointer no pool holds
      (NULL included) makes the source dereference a NULL pool: None. */
  function Free(a: Instance, ptr: Addr, blockSize: Addr -> Size): (r: Option<Instance>)
    ensures r.None? <==> GetPool(a, ptr).None?
    ensures r.Some? ==>
      var k := GetPool(a, ptr).value;
      var u := Sub(a.pools[k].used, blockSize(ptr));
      && r.value.totalUsed == Sub(a.totalUsed, blockSize(ptr))
      && (|r.value.pools| == |a.pools| - 1 <==> u == 0 && a.numPools > 1)
      && (|r.value.pools| == |a.pools| ==> r.value.pools == SetUsed(a.pools, k, u))
      && (|r.value.pools| == |a.pools| - 1 ==> r.value.pools == a.pools[..k] + a.pools[k + 1..])
    ensures r.Some? && |r.value.pools| == |a.pools| ==> r.value == a.(pools := r.value.pools, totalUsed := r.value.totalUsed)
    ensures r.Some? && |r.value.pools| == |a.pools| - 1 ==>
      && r.value.numPools == Sub(a.numPools, 1)
      && r.value.totalSize == Sub(a.totalSize, a.poolSize)
      && r.value.poolSize == a.poolSize
  {
    match GetPool(a, ptr)
    case None => None
    case Some(k) =>
      var b := blockSize(ptr);
      var a1 := a.(pools := SetUsed(a.pools, k, Sub(a.pools[k].used, b)), totalUsed := Sub(a.totalUsed, b));
      if a1.pools[k].used == 0 && a1.numPools > 1 then
        assert a1.pools[..k] + a1.pools[k + 1..] == a.pools[..k] + a.pools[k + 1..];
        Some(FreePool(a1, k))
      else Some(a1)
  }

  /** Free keeps the invariant, and never removes the only pool. */
  lemma FreePreservesWf(a: Instance, counter: nat, ptr: Addr, blockSize: Addr -> Size)
    requires Wf(a) && IdsBelow(a.pools, counter)
    requires GetPool(a, ptr).Some?
    ensures Wf(Free(a, ptr, blockSize).value)
    ensures IdsBelow(Free(a, ptr, blockSize).value.pools, counter)
    ensures |a.pools| == 1 ==> |Free(a, ptr, blockSize).value.pools| == 1
  {
    var k := GetPool(a, ptr).value;
    var b := blockSize(ptr);
    var a1 := a.(pools := SetUsed(a.pools, k, Sub(a.pools[k].used, b)), totalUsed := Sub(a.totalUsed, b));
    DropBalanced(a.pools, k, a.totalUsed, b);
    SetUsedKeeps(a.pools, k, Sub(a.pools[k].used, b), a.poolSize, counter);
    assert Sound(a1);
    if a1.pools[k].used == 0 && a1.numPools > 1 {
      FreePoolPreservesWf(a1, k, counter);
    }
  }

  // ---------------------------------------------------------------------
  // Resize

  /** The `used` of pool `j` after lines 390-391: the pool `ko` that held
      the old block loses `current`, the pool `kn` that holds the new block
      gains `newBlock` (both, when they are the same pool). */
  function MovedUsed(ps: seq<Pool>, j: nat, ko: Option<nat>, kn: Option<nat>, current: Size, newBlock: Size): Size
    requires j < |ps|
  {
    var u := if ko == Some(j) then Sub(ps[j].used, current) else ps[j].used;
    if kn == Some(j) then Add(u, newBlock) else u
  }

  /** Lines 387-391: both pools are looked up in the list as it stands, then
      the old pool loses the old block size and the new pool gains the new
      one. Only `used` fields change. */
  function Recharge(a: Instance, ptr: Addr, newPtr: Addr, current: Size, newBlock: Size): (r: Instance)
    ensures r == a.(pools := r.pools) && |r.pools| == |a.pools|
    ensures forall j :: 0 <= j < |a.pools| ==>
      r.pools[j] == a.pools[j].(used := MovedUsed(a.pools, j, FindPool(a.pools, ptr), FindPool(a.pools, newPtr), current, newBlock))
    ensures Sound(a) ==> Sound(r)
  {
    var ko := FindPool(a.pools, ptr);
    var kn := FindPool(a.pools, newPtr);
    var p1 := if ko.Some? then SetUsed(a.pools, ko.value, Sub(a.pools[ko.value].used, current)) else a.pools;
    var p2 := if kn.Some? then SetUsed(p1, kn.value, Add(p1[kn.value].used, newBlock)) else p1;
    RechargeKeeps(a, ko, kn, p1, p2, current, newBlock);
    a.(pools := p2)
  }

  /** The two `used` updates of `Recharge` keep the list and the layout. */
  lemma RechargeKeeps(a: Instance, ko: Option<nat>, kn: Option<nat>, p1: seq<Pool>, p2: seq<Pool>,
                      current: Size, newBlock: Size)
    requires ko.Some? ==> ko.value < |a.pools|
    requires kn.Some? ==> kn.value < |a.pools|
    requires p1 == if ko.Some? then SetUsed(a.pools, ko.value, Sub(a.pools[ko.value].used, current)) else a.pools
    requires p2 == if kn.Some? then SetUsed(p1, kn.value, Add(p1[kn.value].used, newBlock)) else p1
    ensures |p2| == |a.pools|
    ensures forall j :: 0 <= j < |a.pools| ==> p2[j] == a.pools[j].(used := MovedUsed(a.pools, j, ko, kn, current, newBlock))
    ensures Sound(a) ==> Sound(a.(pools := p2))
  {
    if ko.Some? {
      SetUsedKeeps(a.pools, ko.value, Sub(a.pools[ko.value].used, current), a.poolSize, 0);
    }
    if kn.Some? {
      SetUsedKeeps(p1, kn.value, Add(p1[kn.value].used, newBlock), a.poolSize, 0);
    }
  }

  /** Lines 384-396: the block moved. The pools are recharged as
      `Recharge` states, and the old pool is then freed when its `used` is 0
      and more than one pool exists. `total_used` is not touched. */
  function Moved(g: Outcome, ptr: Addr, current: Size, newBlock: Size): (r: Outcome)
    ensures r.inst.totalUsed == g.inst.totalUsed && r.counter == g.counter && r.ptr == g.ptr
    ensures var ps := g.inst.pools;
      var ko := FindPool(ps, ptr);
      var kn := FindPool(ps, g.ptr);
      var drop := ko.Some? && MovedUsed(ps, ko.value, ko, kn, current, newBlock) == 0 && g.inst.numPools > 1;
      && (|r.inst.pools| == |ps| <==> !drop)
      && (!drop ==> forall j :: 0 <= j < |ps| ==> r.inst.pools[j] == ps[j].(used := MovedUsed(ps, j, ko, kn, current, newBlock)))
      && (drop ==> |r.inst.pools| == |ps| - 1)
      && (drop ==> forall j :: 0 <= j < ko.value ==> r.inst.pools[j] == ps[j].(used := MovedUsed(ps, j, ko, kn, current, newBlock)))
      && (drop ==> forall j :: ko.value < j < |ps| ==> r.inst.pools[j - 1] == ps[j].(used := MovedUsed(ps, j, ko, kn, current, newBlock)))
    ensures |r.inst.pools| == |g.inst.pools| ==> r.inst == g.inst.(pools := r.inst.pools)
    ensures |r.inst.pools| < |g.inst.pools| ==>
      && r.inst.numPools == Sub(g.inst.numPools, 1)
      && r.inst.totalSize == Sub(g.inst.totalSize, g.inst.poolSize)
      && r.inst.poolSize == g.inst.poolSize
    ensures Sound(g.inst) ==> Sound(r.inst)
  {
    var ko := FindPool(g.inst.pools, ptr);
    var i2 := Recharge(g.inst, ptr, g.ptr, current, newBlock);
    if ko.Some? && i2.pools[ko.value].used == 0 && i2.numPools > 1 then
      FreeSoundHelper(i2, ko.value);
      Outcome(FreePool(i2, ko.value), g.counter, g.ptr)
    else Outcome(i2, g.counter, g.ptr)
  }

  lemma FreeSoundHelper(a: Instance, k: nat)
    requires k < |a.pools| && a.numPools > 1
    ensures Sound(a) ==> Sound(FreePool(a, k))
  {
    if Sound(a) {
      FreePoolPreservesWf(a, k, MaxId(a.pools));
    }
  }

  /** The largest pool id, a bound for `IdsBelow`. */
  function MaxId(ps: seq<Pool>): (m: nat)
    ensures IdsBelow(ps, m)
  {
    if |ps| == 0 then 0
    else
      var rest := MaxId(ps[1..]);
      assert forall i :: 1 <= i < |ps| ==> ps[i] == ps[1..][i - 1];
      if ps[0].id < rest then rest else ps[0].id
  }

  /** Lines 397-403: resized in place. The pool holding the block, if any,
      has its `used` moved by the `size_t` difference between the new and
      the old block size; every other pool and field stays. */
  function InPlace(g: Outcome, current: Size, newBlock: Size): (r: Outcome)
    ensures r.inst.totalUsed == g.inst.totalUsed && r.counter == g.counter && r.ptr == g.ptr
    ensures r.inst == g.inst.(pools := r.inst.pools) && |r.inst.pools| == |g.inst.pools|
    ensures var k := FindPool(g.inst.pools, g.ptr);
      forall j :: 0 <= j < |g.inst.pools| ==>
        r.inst.pools[j].used == (if k == Some(j) then Add(g.inst.pools[j].used, Sub(newBlock, current)) else g.inst.pools[j].used)
        && r.inst.pools[j] == g.inst.pools[j].(used := r.inst.pools[j].used)
    ensures Sound(g.inst) ==> Sound(r.inst)
  {
    match FindPool(g.inst.pools, g.ptr)
    case None => g
    case Some(k) =>
      var v := Add(g.inst.pools[k].used, Sub(newBlock, current));
      SetUsedKeeps(g.inst.pools, k, v, g.inst.poolSize, 0);
      Outcome(g.inst.(pools := SetUsed(g.inst.pools, k, v)), g.counter, g.ptr)
  }

  /** `sdl_tlsf_realloc`. `before` is `tlsf_block_size` before the core's
      resize and `after` after it. Growth applies only when the request is
      larger than the current block: the size check, one pool when the
      headroom is short of the increase, one more pool and one retry when
      the core fails. A failure returns NULL. `total_used` is never updated. */
  function Realloc(a: Instance, counter: nat, ptr: Addr, size: Size, env: CoreEnv,
                   before: Addr -> Size, after: Addr -> Size): (r: Outcome)
    ensures var current := if ptr == NULL then 0 else before(ptr);
      size > current && TooLarge(a, size) ==> r == Outcome(a, counter, NULL)
    ensures r.inst.totalUsed == a.totalUsed
    ensures var current := if ptr == NULL then 0 else before(ptr);
      size <= current ==> |r.inst.pools| <= |a.pools|
    ensures var current := if ptr == NULL then 0 else before(ptr);
      r.ptr == NULL && !(size > current && TooLarge(a, size)) ==>
        |a.pools| <= |r.inst.pools| && r.inst.pools[..|a.pools|] == a.pools
    ensures r.ptr != NULL ==> r.ptr == (if env.first != NULL then env.first else env.retry)
    ensures var current := if ptr == NULL then 0 else before(ptr);
      var grow := size > current;
      !(grow && TooLarge(a, size)) ==> r.ptr == (if env.first != NULL || !grow then env.first else env.retry)
    ensures var current := if ptr == NULL then 0 else before(ptr);
      var grow := size > current;
      var n := |a.pools| + Added(grow && Headroom(a) < size - current, env.proactive) + Added(env.first == NULL && grow, env.recovery);
      !(grow && TooLarge(a, size)) ==>
        && n - 1 <= |r.inst.pools| <= n
        && (r.ptr == NULL || r.ptr == ptr ==> |r.inst.pools| == n)
        && r.counter == counter + (n - |a.pools|)
  {
    var current := if ptr == NULL then 0 else before(ptr);
    if size > current && TooLarge(a, size) then Outcome(a, counter, NULL)
    else
      var g := GrowThenRetry(a, counter, size > current && Headroom(a) < size - current, size > current, env);
      Adjust(g, ptr, current, after)
  }

  /** Lines 374-403 after the core answered: a failure returns NULL and
      changes nothing more; a moved block recharges both pools and may free
      the old one; a block resized in place recharges its pool. */
  function Adjust(g: Outcome, ptr: Addr, current: Size, after: Addr -> Size): (r: Outcome)
    ensures r.counter == g.counter && r.ptr == g.ptr && r.inst.totalUsed == g.inst.totalUsed
    ensures g.ptr == NULL ==> r == g
    ensures |g.inst.pools| - 1 <= |r.inst.pools| <= |g.inst.pools|
    ensures r.ptr == NULL || r.ptr == ptr ==> |r.inst.pools| == |g.inst.pools|
    ensures var ps := g.inst.pools;
      r.ptr != NULL && r.ptr == ptr ==>
        forall j :: 0 <= j < |ps| ==>
          r.inst.pools[j].used == (if FindPool(ps, ptr) == Some(j) then Add(ps[j].used, Sub(after(ptr), current)) else ps[j].used)
    ensures var ps := g.inst.pools;
      var ko := FindPool(ps, ptr);
      var kn := FindPool(ps, r.ptr);
      r.ptr != NULL && r.ptr != ptr ==>
        && (|r.inst.pools| == |ps| - 1 <==> ko.Some? && MovedUsed(ps, ko.value, ko, kn, current, after(r.ptr)) == 0 && g.inst.numPools > 1)
        && (|r.inst.pools| == |ps| ==> forall j :: 0 <= j < |ps| ==> r.inst.pools[j].used == MovedUsed(ps, j, ko, kn, current, after(r.ptr)))
    ensures |r.inst.pools| == |g.inst.pools| ==> r.inst == g.inst.(pools := r.inst.pools)
    ensures |r.inst.pools| < |g.inst.pools| ==>
      && r.inst.numPools == Sub(g.inst.numPools, 1)
      && r.inst.totalSize == Sub(g.inst.totalSize, g.inst.poolSize)
      && r.inst.poolSize == g.inst.poolSize
    ensures Sound(g.inst) ==> Sound(r.inst)
  {
    if g.ptr == NULL then g
    else if g.ptr != ptr then Moved(g, ptr, current, after(g.ptr))
    else InPlace(g, current, after(g.ptr))
  }

  /** How a successful realloc charges the pools, in terms of the pools
      after growth: in place, the block's pool moves by the difference of
      the block sizes; moved, the old pool loses `current`, the new pool
      gains the new block size, and the old pool is freed exactly when it
      is left at 0 with more than one pool. */
  lemma ReallocCharges(a: Instance, counter: nat, ptr: Addr, size: Size, env: CoreEnv,
                       before: Addr -> Size, after: Addr -> Size)
    ensures var r := Realloc(a, counter, ptr, size, env, before, after);
      var current := if ptr == NULL then 0 else before(ptr);
      var g := GrowThenRetry(a, counter, size > current && Headroom(a) < size - current, size > current, env);
      var ps := g.inst.pools;
      r.ptr != NULL && r.ptr == ptr ==>
        && g.ptr == r.ptr && |r.inst.pools| == |ps|
        && forall j :: 0 <= j < |ps| ==>
             r.inst.pools[j].used == (if FindPool(ps, ptr) == Some(j) then Add(ps[j].used, Sub(after(ptr), current)) else ps[j].used)
    ensures var r := Realloc(a, counter, ptr, size, env, before, after);
      var current := if ptr == NULL then 0 else before(ptr);
      var g := GrowThenRetry(a, counter, size > current && Headroom(a) < size - current, size > current, env);
      var ps := g.inst.pools;
      var ko := FindPool(ps, ptr);
      var kn := FindPool(ps, r.ptr);
      r.ptr != NULL && r.ptr != ptr ==>
        && g.ptr == r.ptr
        && (|r.inst.pools| == |ps| - 1 <==> ko.Some? && MovedUsed(ps, ko.value, ko, kn, current, after(r.ptr)) == 0 && g.inst.numPools > 1)
        && (|r.inst.pools| == |ps| ==> forall j :: 0 <= j < |ps| ==> r.inst.pools[j].used == MovedUsed(ps, j, ko, kn, current, after(r.ptr)))
  {
  }

  /** How realloc moves the instance's counters. Against the grown
      instance (whose counters `GrowThenRetryCounters` gives: one and
      `alloc_size` more per added pool, line 509), they stay, or drop by one
      pool and `pool_size` when the old pool is freed after a move (lines
      542-543). */
  lemma ReallocCounters(a: Instance, counter: nat, ptr: Addr, size: Size, env: CoreEnv,
                        before: Addr -> Size, after: Addr -> Size)
    ensures var r := Realloc(a, counter, ptr, size, env, before, after);
      var current := if ptr == NULL then 0 else before(ptr);
      var grow := size > current;
      var g := GrowThenRetry(a, counter, grow && Headroom(a) < size - current, grow, env).inst;
      !(grow && TooLarge(a, size)) ==>
        && r.inst.poolSize == a.poolSize
        && r.inst.numPools == (if |r.inst.pools| == |g.pools| then g.numPools else Sub(g.numPools, 1))
        && r.inst.totalSize == (if |r.inst.pools| == |g.pools| then g.totalSize else Sub(g.totalSize, a.poolSize))
  {
    var current := if ptr == NULL then 0 else before(ptr);
    var grow := size > current;
    if !(grow && TooLarge(a, size)) {
      var g := GrowThenRetry(a, counter, grow && Headroom(a) < size - current, grow, env);
      assert Realloc(a, counter, ptr, size, env, before, after) == Adjust(g, ptr, current, after);
      ShrinkCounters(g.inst, Adjust(g, ptr, current, after).inst);
    }
  }

  /** An instance equal to `g` but for its pools, or with one pool freed,
      has the counters of `g`, or those lowered by one pool. */
  lemma ShrinkCounters(g: Instance, r: Instance)
    requires |r.pools| == |g.pools| ==> r == g.(pools := r.pools)
    requires |r.pools| < |g.pools| ==>
      && r.numPools == Sub(g.numPools, 1)
      && r.totalSize == Sub(g.totalSize, g.poolSize)
      && r.poolSize == g.poolSize
    requires |g.pools| - 1 <= |r.pools| <= |g.pools|
    ensures r.poolSize == g.poolSize
    ensures r.numPools == (if |r.pools| == |g.pools| then g.numPools else Sub(g.numPools, 1))
    ensures r.totalSize == (if |r.pools| == |g.pools| then g.totalSize else Sub(g.totalSize, g.poolSize))
  {
  }

  /** Realloc keeps the structural invariant (not the balance: see the
      resize finding). */
  lemma ReallocPreservesSound(a: Instance, counter: nat, ptr: Addr, size: Size, env: CoreEnv,
                              before: Addr -> Size, after: Addr -> Size)
    requires Sound(a) && IdsBelow(a.pools, counter)
    requires FreshGrants(a, env)
    ensures Sound(Realloc(a, counter, ptr, size, env, before, after).inst)
  {
    var current := if ptr == NULL then 0 else before(ptr);
    GrowThenRetryPreservesWf(a, counter, size > current && Headroom(a) < size - current, size > current, env);
  }
}

=== FILE: common.dfy ===
/** Shared vocabulary: an optional value, the machine word the allocator counts
    in, and sums of integer sequences used for the usage and capacity totals. */
module Common {

  /** A value that may be absent; stands for a C pointer that may be NULL. */
  datatype Option<+T> = None | Some(value: T)

  /** `size_t` on a 64-bit target: arithmetic wraps modulo 2^64. */
  const WORD: int := 0x1_0000_0000_0000_0000

  type Size = x: int | 0 <= x < WORD

  /** Unsigned `a + b` as C computes it on `size_t`. */
  function Add(a: Size, b: Size): (r: Size)
    ensures a + b < WORD ==> r == a + b
    ensures WORD <= a + b ==> r == a + b - WORD
  {
    (a + b) % WORD
  }

  /** Unsigned `a - b` as C computes it on `size_t`: below zero it wraps. */
  function Sub(a: Size, b: Size): (r: Size)
    ensures b <= a ==> r == a - b
    ensures a < b ==> r == a - b + WORD
  {
    (a - b) % WORD
  }

  /** Adding the wrapped value of `y` is the same, modulo the word, as adding `y`. */
  lemma ModAddRight(x: int, y: int)
    ensures (x + y % WORD) % WORD == (x + y) % WORD
  {
    var q := y / WORD;
    assert y == q * WORD + y % WORD;
    ModMultiple(x + y % WORD, q);
  }

  lemma ModMultiple(x: int, q: int)
    ensures (x + q * WORD) % WORD == x % WORD
  {
    var d := x / WORD;
    var m := x % WORD;
    assert x == d * WORD + m;
    assert x + q * WORD == (d + q) * WORD + m;
  }

  /** `t` raised `m` times by `s` in `size_t` arithmetic. */
  function AddTimes(t: Size, s: Size, m: nat): Size
  {
    if m == 0 then t else Add(AddTimes(t, s, m - 1), s)
  }

  /** `t` lowered `k` times by `p` in `size_t` arithmetic. */
  function SubTimes(t: Size, p: Size, k: nat): Size
  {
    (t - k * p) % WORD
  }

  /** Subtracting `p` once with wrap-around and then `j` more times is the
      same as subtracting it `j + 1` times. */
  lemma SubRepeat(t: Size, p: Size, j: nat)
    ensures SubTimes(Sub(t, p), p, j) == SubTimes(t, p, j + 1)
    ensures SubTimes(t, p, 0) == t
  {
    assert (j + 1) * p == j * p + p;
    ModAddRight(-(j * p), t - p);
  }

  /** Sum of a sequence of integers. */
  function Sum(xs: seq<int>): int
  {
    if |xs| == 0 then 0 else xs[0] + Sum(xs[1..])
  }

  lemma {:induction false} SumConcat(xs: seq<int>, ys: seq<int>)
    ensures Sum(xs + ys) == Sum(xs) + Sum(ys)
  {
    if |xs| == 0 {
      assert xs + ys == ys;
    } else {
      assert (xs + ys)[1..] == xs[1..] + ys;
      SumConcat(xs[1..], ys);
    }
  }

  lemma SumAppend(xs: seq<int>, x: int)
    ensures Sum(xs + [x]) == Sum(xs) + x
  {
    SumConcat(xs, [x]);
  }

  /** Replacing one element changes the sum by exactly the difference. */
  lemma SumUpdate(xs: seq<int>, k: nat, v: int)
    requires k < |xs|
    ensures Sum(xs[k := v]) == Sum(xs) - xs[k] + v
  {
    assert xs == xs[..k] + [xs[k]] + xs[k+1..];
    assert xs[k := v] == xs[..k] + [v] + xs[k+1..];
    SumConcat(xs[..k] + [xs[k]], xs[k+1..]);
    SumConcat(xs[..k], [xs[k]]);
    SumConcat(xs[..k] + [v], xs[k+1..]);
    SumConcat(xs[..k], [v]);
  }

  /** Dropping one element lowers the sum by exactly that element. */
  lemma {:induction false} SumRemove(xs: seq<int>, k: nat)
    requires k < |xs|
    ensures Sum(xs[..k] + xs[k+1..]) == Sum(xs) - xs[k]
    decreases k
  {
    if k == 0 {
      assert xs[..0] + xs[1..] == xs[1..];
    } else {
      var tail := xs[1..];
      SumRemove(tail, k - 1);
      assert (xs[..k] + xs[k+1..])[1..] == tail[..k-1] + tail[k..];
    }
  }
}

=== FILE: directory.dfy ===
/** The process-wide state of the arena layer: the instances that exist, the
    active and the base instance, and the pool id counter shared by all of
    them (TLSF/SDL_TLSF/sdl_tlsf.c, lines 15-48 and 121-187). An instance is
    named by the address of its control block; NULL is address 0. */
module Directory {
  import opened Common
  import opened PoolList
  import opened Arena

  type Handle = Addr

  datatype World = World(instances: map<Handle, Instance>, active: Handle, base: Handle, counter: nat)

  /** Every live instance keeps its invariant and only carries ids the
      counter has handed out; active and base are live or NULL. */
  predicate WorldWf(w: World)
  {
    && NULL !in w.instances
    && (forall h :: h in w.instances ==> Wf(w.instances[h]) && IdsBelow(w.instances[h].pools, w.counter))
    && (w.active == NULL || w.active in w.instances)
    && (w.base == NULL || w.base in w.instances)
  }

  /** A world made of unchanged instances of a well-formed world, with the
      same counter and live or NULL active and base handles, is well formed. */
  lemma WorldWfSub(w: World, r: World)
    requires WorldWf(w)
    requires forall g :: g in r.instances ==> g in w.instances && r.instances[g] == w.instances[g]
    requires r.counter == w.counter
    requires r.active == NULL || r.active in r.instances
    requires r.base == NULL || r.base in r.instances
    ensures WorldWf(r)
  {
    forall g | g in r.instances
      ensures Wf(r.instances[g]) && IdsBelow(r.instances[g].pools, r.counter)
    {
      assert r.instances[g] == w.instances[g];
    }
  }

  /** `sdl_tlsf_init_with_size`: the counter restarts at 0 and a new instance
      becomes both base and active; when its mapping fails both are NULL. */
  function Init(poolSize: Size, mapping: Option<Addr>): (r: World)
    ensures r.counter == 0 && r.active == r.base
    ensures mapping.None? ==> r.base == NULL && r.instances == map[]
    ensures mapping.Some? ==> r.base == mapping.value && r.instances.Keys == {mapping.value}
    ensures mapping.Some? ==> Some(r.instances[mapping.value]) == CreateInstance(poolSize, mapping)
    ensures mapping != Some(NULL) ==> WorldWf(r)
  {
    match CreateInstance(poolSize, mapping)
    case None => World(map[], NULL, NULL, 0)
    case Some(a) => World(map[mapping.value := a], mapping.value, mapping.value, 0)
  }

  /** `sdl_tlsf_create_instance` on the world: the new instance is named by
      its mapping and joins the directory; active, base and the counter are
      not touched. A failed mapping returns NULL and changes nothing. */
  function CreateIn(w: World, poolSize: Size, mapping: Option<Addr>): (r: (World, Handle))
    ensures r.0.active == w.active && r.0.base == w.base && r.0.counter == w.counter
    ensures mapping.None? ==> r == (w, NULL)
    ensures mapping.Some? ==>
      && r.1 == mapping.value
      && r.0.instances.Keys == w.instances.Keys + {r.1}
      && (forall g :: g in w.instances && g != r.1 ==> r.0.instances[g] == w.instances[g])
      && var a := r.0.instances[r.1];
         && |a.pools| == 1 && a.pools[0].used == 0
         && a.numPools == 1 && a.totalSize == poolSize && a.totalUsed == 0
  {
    match CreateInstance(poolSize, mapping)
    case None => (w, NULL)
    case Some(a) => (w.(instances := w.instances[mapping.value := a]), mapping.value)
  }

  /** Creating an instance keeps the directory invariant whenever the
      mapping is not at address 0: the new instance is well formed and its
      one pool has id 0, below any counter. */
  lemma CreateKeepsWorldWf(w: World, poolSize: Size, mapping: Option<Addr>)
    requires WorldWf(w) && mapping != Some(NULL)
    ensures WorldWf(CreateIn(w, poolSize, mapping).0)
  {
    if mapping.Some? {
      var r := CreateIn(w, poolSize, mapping).0;
      var a := CreateInstance(poolSize, mapping).value;
      assert r.instances == w.instances[mapping.value := a];
      forall g | g in r.instances
        ensures Wf(r.instances[g]) && IdsBelow(r.instances[g].pools, r.counter)
      {
        if g != mapping.value {
          assert r.instances[g] == w.instances[g];
        }
      }
    }
  }

  /** `sdl_tlsf_get_instance`. */
  function GetInstance(w: World): Handle
  {
    w.active
  }

  /** `sdl_tlsf_set_instance`: only the active handle changes. */
  function SetInstance(w: World, h: Handle): (r: World)
    ensures r.instances == w.instances && r.base == w.base && r.counter == w.counter
    ensures (h == NULL || h in w.instances) && WorldWf(w) ==> WorldWf(r)
  {
    w.(active := h)
  }

  /** `sdl_tlsf_rebase_instance`: the base becomes active and the previously
      active handle is returned. */
  function RebaseInstance(w: World): (r: (World, Handle))
    ensures r.0.instances == w.instances && r.0.base == w.base && r.0.counter == w.counter
    ensures WorldWf(w) ==> WorldWf(r.0)
  {
    (w.(active := w.base), w.active)
  }

  /** Setting an instance and reading it back gives that instance; rebasing
      makes the base active, and setting the handle rebase returned undoes
      the rebase. */
  lemma SwitchRoundTrip(w: World, h: Handle)
    ensures GetInstance(SetInstance(w, h)) == h
    ensures GetInstance(RebaseInstance(w).0) == w.base
    ensures SetInstance(RebaseInstance(w).0, RebaseInstance(w).1) == w
    ensures RebaseInstance(SetInstance(w, h)).1 == h
  {
  }

  // ---------------------------------------------------------------------
  // Freeing a pool of any instance

  /** `sdl_tlsf_free_pool` applied to pool `k` of instance `h`. The record's
      neighbours are relinked inside `h`, but header, tail, `num_pools` and
      `total_size` are updated on the ACTIVE instance. A NULL active
      instance is dereferenced: None. */
  function FreePoolIn(w: World, h: Handle, k: nat): (r: Option<World>)
    requires h in w.instances && k < |w.instances[h].pools|
    ensures r.None? <==> w.active !in w.instances
    ensures r.Some? ==>
      && r.value.instances.Keys == w.instances.Keys
      && r.value.active == w.active && r.value.base == w.base && r.value.counter == w.counter
      && r.value.instances[h].pools == w.instances[h].pools[..k] + w.instances[h].pools[k + 1..]
  {
    if w.active !in w.instances then None
    else
      var a := w.instances[h];
      var w1 := w.(instances := w.instances[h := Detach(a, k)]);
      Some(w1.(instances := w1.instances[w.active := Shrink(w1.instances[w.active], a.links, a.pools[k].rec)]))
  }

  /** The owner's part of `sdl_tlsf_free_pool`: pool `k` leaves the order
      and its neighbours are relinked. */
  function Detach(a: Instance, k: nat): Instance
    requires k < |a.pools|
  {
    a.(pools := a.pools[..k] + a.pools[k + 1..], links := Relink(a.links, a.pools[k].rec))
  }

  /** The active instance's part of `sdl_tlsf_free_pool`: header and tail
      are retargeted around `rec`, whose neighbours are read from the
      owner's links `ol`, and the counters drop. */
  function Shrink(act: Instance, ol: Links, rec: Addr): Instance
  {
    act.(links := RetargetEnds(act.links, rec, Get(ol.prev, rec), Get(ol.next, rec)),
         numPools := Sub(act.numPools, 1),
         totalSize := Sub(act.totalSize, act.poolSize))
  }

  /** On the active instance the free is exactly `Arena.FreePool`. */
  lemma FreePoolInActive(w: World, h: Handle, k: nat)
    requires h in w.instances && k < |w.instances[h].pools| && h == w.active
    ensures FreePoolIn(w, h, k) == Some(w.(instances := w.instances[h := FreePool(w.instances[h], k)]))
  {
    var a := w.instances[h];
    var rec := a.pools[k].rec;
    var owner := a.(pools := a.pools[..k] + a.pools[k + 1..], links := Relink(a.links, rec));
    assert w.instances[h := owner][h := FreePool(a, k)] == w.instances[h := FreePool(a, k)];
  }

  /** On any other instance the owner is only relinked, its counters stay,
      and the active instance's counters drop instead. */
  lemma FreePoolInOther(w: World, h: Handle, k: nat)
    requires h in w.instances && k < |w.instances[h].pools| && h != w.active && w.active in w.instances
    ensures var r := FreePoolIn(w, h, k).value;
      var a := w.instances[h];
      var act := w.instances[w.active];
      && r.instances[h] == a.(pools := a.pools[..k] + a.pools[k + 1..], links := Relink(a.links, a.pools[k].rec))
      && r.instances[w.active].numPools == Sub(act.numPools, 1)
      && r.instances[w.active].totalSize == Sub(act.totalSize, act.poolSize)
      && r.instances[w.active].pools == act.pools
      && r.instances[w.active].poolSize == act.poolSize
      && (forall g :: g in w.instances && g != h && g != w.active ==> r.instances[g] == w.instances[g])
  {
  }

  // ---------------------------------------------------------------------
  // Destroying an instance

  /** Instance `a` with every pool but the header removed, tail first, by
      `Arena.FreePool`: what the destroy walk does to the active instance. */
  function StripPools(a: Instance): (r: Instance)
    decreases |a.pools|
    ensures |a.pools| <= 1 ==> r == a
    ensures 1 <= |a.pools| ==> r.pools == a.pools[..1]
    ensures r.poolSize == a.poolSize && r.totalUsed == a.totalUsed
  {
    if |a.pools| <= 1 then a
    else
      var a' := FreePool(a, |a.pools| - 1);
      assert a'.pools[..1] == a.pools[..1];
      StripPools(a')
  }

  /** One step of the strip: freeing the tail pool keeps the instance
      sound and the header pool in front. */
  lemma StripStep(a: Instance)
    requires Sound(a) && 2 <= |a.pools|
    ensures var a' := FreePool(a, |a.pools| - 1);
      Sound(a') && a'.pools[0] == a.pools[0]
  {
    FreePoolSound(a, |a.pools| - 1, MaxId(a.pools));
  }

  lemma StripPoolsUnfold(a: Instance)
    requires 2 <= |a.pools|
    ensures StripPools(a) == StripPools(FreePool(a, |a.pools| - 1))
  {
  }

  lemma UpdateTwice<K, V>(m: map<K, V>, k: K, v: V, v': V)
    ensures m[k := v][k := v'] == m[k := v']
  {
  }

  /** Every pool removed by the strip lowers `total_size` by `pool_size`. */
  lemma {:induction false} StripPoolsSize(a: Instance)
    requires 1 <= |a.pools|
    ensures StripPools(a).totalSize == SubTimes(a.totalSize, a.poolSize, |a.pools| - 1)
    decreases |a.pools|
  {
    if |a.pools| > 1 {
      var a' := FreePool(a, |a.pools| - 1);
      var j := |a.pools| - 2;
      StripPoolsSize(a');
      assert StripPools(a).totalSize == SubTimes(a'.totalSize, a.poolSize, j);
      SubRepeat(a.totalSize, a.poolSize, j);
    }
  }

  /** Stripping keeps the invariant and leaves one pool, the header, with
      `num_pools` back to 1 and `total_size` lowered by `pool_size` per
      removed pool. */
  lemma {:induction false} StripPoolsSound(a: Instance)
    requires Sound(a)
    ensures var r := StripPools(a);
      && Sound(r)
      && |r.pools| == 1
      && r.links.header == r.links.tail == Some(a.pools[0].rec)
      && r.numPools == 1
      && r.totalSize == SubTimes(a.totalSize, a.poolSize, |a.pools| - 1)
    decreases |a.pools|
  {
    if |a.pools| > 1 {
      StripStep(a);
      StripPoolsSound(FreePool(a, |a.pools| - 1));
    }
    StripPoolsSize(a);
  }

  /** The destroy walk as the source performs it, one `sdl_tlsf_free_pool`
      per pool from the tail back to (excluding) the header. */
  function Strip(w: World, h: Handle): (r: Option<World>)
    requires h in w.instances
    decreases |w.instances[h].pools|
    ensures r.None? <==> w.active !in w.instances && |w.instances[h].pools| > 1
    ensures |w.instances[h].pools| <= 1 ==> r == Some(w)
    ensures r.Some? ==>
      && r.value.instances.Keys == w.instances.Keys
      && r.value.active == w.active && r.value.base == w.base && r.value.counter == w.counter
      && r.value.instances[h].pools == w.instances[h].pools[..if |w.instances[h].pools| == 0 then 0 else 1]
  {
    var n := |w.instances[h].pools|;
    if n <= 1 then Some(w)
    else match FreePoolIn(w, h, n - 1)
      case None => None
      case Some(w') =>
        assert w'.instances[h].pools[..1] == w.instances[h].pools[..1];
        Strip(w', h)
  }

  /** The walk touches only the destroyed instance and the active one. */
  lemma {:induction false} StripFrame(w: World, h: Handle)
    requires h in w.instances
    ensures Strip(w, h).Some? ==>
      forall g :: g in w.instances && g != h && g != w.active ==> Strip(w, h).value.instances[g] == w.instances[g]
    decreases |w.instances[h].pools|
  {
    var n := |w.instances[h].pools|;
    if n > 1 && w.active in w.instances {
      if h == w.active {
        FreePoolInActive(w, h, n - 1);
      } else {
        FreePoolInOther(w, h, n - 1);
      }
      StripUnfold(w, h);
      StripFrame(FreePoolIn(w, h, n - 1).value, h);
    }
  }

  /** With more than one pool and a live active instance, the walk frees
      the tail pool and continues. */
  lemma StripUnfold(w: World, h: Handle)
    requires h in w.instances && w.active in w.instances && 2 <= |w.instances[h].pools|
    ensures FreePoolIn(w, h, |w.instances[h].pools| - 1).Some?
    ensures Strip(w, h) == Strip(FreePoolIn(w, h, |w.instances[h].pools| - 1).value, h)
  {
    var n := |w.instances[h].pools|;
    var r := FreePoolIn(w, h, n - 1);
    assert r.Some? && h in r.value.instances;
    var w' := r.value;
    assert Strip(w, h) == Strip(w', h);
  }

  /** Destroying the active instance strips exactly that instance. */
  lemma {:induction false} StripActive(w: World, h: Handle)
    requires h in w.instances && h == w.active
    ensures Strip(w, h) == Some(w.(instances := w.instances[h := StripPools(w.instances[h])]))
    decreases |w.instances[h].pools|
  {
    var a := w.instances[h];
    if |a.pools| > 1 {
      var a' := FreePool(a, |a.pools| - 1);
      var w' := w.(instances := w.instances[h := a']);
      StripUnfold(w, h);
      FreePoolInActive(w, h, |a.pools| - 1);
      assert h in w'.instances && w'.instances[h] == a' && h == w'.active;
      assert Strip(w, h) == Strip(w', h);
      StripActive(w', h);
      StripPoolsUnfold(a);
      UpdateTwice(w.instances, h, a', StripPools(a'));
    } else {
      assert w.instances[h := a] == w.instances;
    }
  }

  /** Destroying an instance that is not the active one leaves the owner's
      counters as they were and instead lowers the ACTIVE instance's
      `num_pools` by one and its `total_size` by its `pool_size` for every
      pool walked. */
  lemma {:induction false} StripOther(w: World, h: Handle)
    requires h in w.instances && w.active in w.instances && h != w.active
    ensures Strip(w, h).Some?
    ensures var r := Strip(w, h).value;
      var n := |w.instances[h].pools|;
      var act := w.instances[w.active];
      && r.instances[w.active].numPools == SubTimes(act.numPools, 1, if n <= 1 then 0 else n - 1)
      && r.instances[w.active].totalSize == SubTimes(act.totalSize, act.poolSize, if n <= 1 then 0 else n - 1)
    decreases |w.instances[h].pools|
  {
    var n := |w.instances[h].pools|;
    if n > 1 {
      var w' := FreePoolIn(w, h, n - 1).value;
      var act := w.instances[w.active];
      var act' := w'.instances[w.active];
      var j := n - 2;
      FreePoolInOther(w, h, n - 1);
      StripUnfold(w, h);
      assert h in w'.instances && w'.active == w.active && |w'.instances[h].pools| == j + 1;
      StripOther(w', h);
      var ra := Strip(w', h).value.instances[w.active];
      assert ra.numPools == SubTimes(act'.numPools, 1, j);
      assert ra.totalSize == SubTimes(act'.totalSize, act.poolSize, j);
      SubRepeat(act.numPools, 1, j);
      SubRepeat(act.totalSize, act.poolSize, j);
    }
  }

  /** Destroying an instance that is not the active one leaves the owner's
      own counters, the active instance's pools and every third instance as
      they were. */
  lemma {:induction false} StripOtherKeeps(w: World, h: Handle)
    requires h in w.instances && w.active in w.instances && h != w.active
    ensures Strip(w, h).Some?
    ensures var r := Strip(w, h).value;
      && r.instances[h].numPools == w.instances[h].numPools
      && r.instances[h].totalSize == w.instances[h].totalSize
      && r.instances[w.active].pools == w.instances[w.active].pools
      && r.instances[w.active].poolSize == w.instances[w.active].poolSize
      && (forall g :: g in w.instances && g != h && g != w.active ==> r.instances[g] == w.instances[g])
    decreases |w.instances[h].pools|
  {
    var n := |w.instances[h].pools|;
    if n > 1 {
      FreePoolInOther(w, h, n - 1);
      StripOtherKeeps(FreePoolIn(w, h, n - 1).value, h);
    }
  }

  /** The links of `h` after one free of its last pool still chain the
      remaining prefix, whether or not `h` is the active instance. */
  lemma FreeLastKeepsChain(w: World, h: Handle, rs: seq<Addr>)
    requires h in w.instances && w.active in w.instances
    requires 2 <= |w.instances[h].pools| == |rs|
    requires Chain(w.instances[h].links, rs)
    requires w.instances[h].pools[|rs| - 1].rec == rs[|rs| - 1]
    ensures Chain(FreePoolIn(w, h, |w.instances[h].pools| - 1).value.instances[h].links, rs[..|rs| - 1])
  {
    var l := w.instances[h].links;
    RelinkLastChain(l, rs);
    if h == w.active {
      FreePoolInActive(w, h, |rs| - 1);
      assert rs[|rs| - 1] != rs[0];
    } else {
      FreePoolInOther(w, h, |rs| - 1);
    }
  }

  /** The destroy walk over instance `h` of `w`, whose pools were `ps`, has
      reached world `cw`: the first `m` pools are left and still chained,
      `cur` is the last of them, and what remains is what `Strip` does. */
  predicate Walking(w: World, cw: World, h: Handle, ps: seq<Pool>, m: nat, cur: Option<Addr>)
  {
    && m <= |ps|
    && h in w.instances && h in cw.instances && cw.active == w.active
    && cw.instances[h].pools == ps[..m]
    && Chain(cw.instances[h].links, Refs(ps)[..m])
    && cur == Last(Refs(ps)[..m])
    && Strip(cw, h) == Strip(w, h)
  }

  /** One iteration of the destroy walk: the record before `cur` is the
      next to visit, and after the free the walk has one pool fewer. */
  lemma WalkStep(w: World, cw: World, h: Handle, ps: seq<Pool>, m: nat, cur: Option<Addr>)
    requires Walking(w, cw, h, ps, m, cur) && 2 <= m && w.active in cw.instances
    ensures FreePoolIn(cw, h, |cw.instances[h].pools| - 1).Some?
    ensures Walking(w, FreePoolIn(cw, h, |cw.instances[h].pools| - 1).value, h, ps, m - 1,
                    Get(cw.instances[h].links.prev, cur.value))
  {
    var rs := Refs(ps);
    assert cur.value == rs[m - 1] by { assert rs[..m][m - 1] == rs[m - 1]; }
    WalkFree(cw, h, ps, m);
    StripUnfold(cw, h);
    var cw' := FreePoolIn(cw, h, |cw.instances[h].pools| - 1).value;
    WalkingIntro(w, cw', h, ps, m - 1, Get(cw.instances[h].links.prev, cur.value));
  }

  /** Assembles the walk invariant from its parts. */
  lemma WalkingIntro(w: World, cw: World, h: Handle, ps: seq<Pool>, m: nat, cur: Option<Addr>)
    requires m <= |ps|
    requires h in w.instances && h in cw.instances && cw.active == w.active
    requires cw.instances[h].pools == ps[..m]
    requires Chain(cw.instances[h].links, Refs(ps)[..m])
    requires cur == Last(Refs(ps)[..m])
    requires Strip(cw, h) == Strip(w, h)
    ensures Walking(w, cw, h, ps, m, cur)
  {
  }

  /** Freeing the last of the `m` pools left: the record before it is the
      next to visit, and the links chain the shorter prefix. */
  lemma WalkFree(cw: World, h: Handle, ps: seq<Pool>, m: nat)
    requires h in cw.instances && cw.active in cw.instances
    requires 2 <= m <= |ps|
    requires cw.instances[h].pools == ps[..m]
    requires Chain(cw.instances[h].links, Refs(ps)[..m])
    ensures Get(cw.instances[h].links.prev, Refs(ps)[m - 1]) == Last(Refs(ps)[..m - 1])
    ensures FreePoolIn(cw, h, |cw.instances[h].pools| - 1).Some?
    ensures var w' := FreePoolIn(cw, h, |cw.instances[h].pools| - 1).value;
      && h in w'.instances && w'.active == cw.active
      && w'.instances[h].pools == ps[..m - 1]
      && Chain(w'.instances[h].links, Refs(ps)[..m - 1])
  {
    var rs := Refs(ps);
    var rm := rs[..m];
    assert rm[m - 1] == rs[m - 1] && rm[m - 2] == rs[m - 2];
    assert cw.instances[h].pools[m - 1].rec == rm[m - 1];
    assert rm[..|rm| - 1] == rs[..m - 1];
    assert ps[..m][..m - 1] == ps[..m - 1];
    assert Get(cw.instances[h].links.prev, rm[m - 1]) == Before(rm, m - 1);
    assert Last(rs[..m - 1]) == Some(rs[m - 2]);
    FreeLastKeepsChain(cw, h, rm);
  }

  /** The walk goes on exactly while at least two pools are left. */
  lemma WalkGoesOn(l: Links, rs: seq<Addr>, m: nat, cur: Option<Addr>)
    requires Chain(l, rs) && m <= |rs| && cur == Last(rs[..m])
    ensures cur.Some? && cur != l.header <==> 2 <= m
  {
    if 1 <= m {
      assert rs[..m][m - 1] == rs[m - 1];
    }
  }

  /** The loop of `sdl_tlsf_destroy_instance` (lines 153-159): start at the
      tail, read `prev` before freeing, and stop at NULL or at the header.
      It performs the same pool frees as `Strip`. */
  method DestroyPools(w: World, h: Handle) returns (r: Option<World>)
    requires h in w.instances
    requires Shape(w.instances[h].links, Refs(w.instances[h].pools))
    ensures r == Strip(w, h)
  {
    var a := w.instances[h];
    var cur := a.links.tail;
    var cw := w;
    var m: nat := |a.pools|;
    assert a.pools[..m] == a.pools && Refs(a.pools)[..m] == Refs(a.pools);
    while cur.Some? && cur != a.links.header
      invariant Walking(w, cw, h, a.pools, m, cur)
      decreases m
    {
      WalkGoesOn(a.links, Refs(a.pools), m, cur);
      var next := FreePoolIn(cw, h, |cw.instances[h].pools| - 1);
      if next.None? {
        return None;
      }
      WalkStep(w, cw, h, a.pools, m, cur);
      cur := Get(cw.instances[h].links.prev, cur.value);
      cw := next.value;
      m := m - 1;
    }
    WalkGoesOn(a.links, Refs(a.pools), m, cur);
    r := Some(cw);
  }

  /** `sdl_tlsf_destroy_instance`: NULL is refused without change; otherwise
      the pools are walked as in `DestroyPools`, the instance disappears,
      and active and base become NULL when they named it. */
  function DestroyInstance(w: World, h: Handle): (r: Option<World>)
    requires h == NULL || h in w.instances
    ensures h == NULL ==> r == Some(w)
    ensures r.None? <==> h != NULL && w.active !in w.instances && 1 < |w.instances[h].pools|
    ensures h != NULL && r.Some? ==>
      && r.value.instances.Keys == w.instances.Keys - {h}
      && (r.value.active == NULL <==> w.active == h || w.active == NULL)
      && (r.value.base == NULL <==> w.base == h || w.base == NULL)
      && r.value.counter == w.counter
    ensures h != NULL && r.Some? ==>
      && r.value.active == (if w.active == h then NULL else w.active)
      && r.value.base == (if w.base == h then NULL else w.base)
    ensures h != NULL && r.Some? ==>
      forall g :: g in r.value.instances && g != w.active ==> r.value.instances[g] == w.instances[g]
  {
    if h == NULL then Some(w)
    else
      StripFrame(w, h);
      match Strip(w, h)
      case None => None
      case Some(w1) =>
        Some(World(w1.instances - {h},
                   if w1.active == h then NULL else w1.active,
                   if w1.base == h then NULL else w1.base,
                   w1.counter))
  }

  /** Destroying an instance right after creating it, in a fresh mapping,
      gives back the directory as it was. */
  lemma CreateThenDestroy(w: World, poolSize: Size, m: Addr)
    requires WorldWf(w) && m != NULL && m !in w.instances
    ensures var c := CreateIn(w, poolSize, Some(m));
      && c.1 == m
      && DestroyInstance(c.0, m) == Some(w)
  {
    assert w.active != m && w.base != m;
    var a := CreateInstance(poolSize, Some(m)).value;
    var c := CreateIn(w, poolSize, Some(m)).0;
    assert c == w.(instances := w.instances[m := a]);
    assert Strip(c, m) == Some(c);
    RemoveFresh(w.instances, m, a);
  }

  lemma RemoveFresh<K, V>(m: map<K, V>, k: K, v: V)
    requires k !in m
    ensures m[k := v] - {k} == m
  {
  }

  /** Destroying the active instance leaves every other instance as it was
      and keeps the directory invariant. */
  lemma DestroyActiveKeepsOthers(w: World)
    requires WorldWf(w) && w.active != NULL
    ensures DestroyInstance(w, w.active).Some?
    ensures var r := DestroyInstance(w, w.active).value;
      && WorldWf(r)
      && r.active == NULL
      && (forall g :: g in r.instances ==> r.instances[g] == w.instances[g])
  {
    DestroyActiveFrame(w);
    WorldWfSub(w, DestroyInstance(w, w.active).value);
  }

  /** What destroying the active instance leaves: the other instances as
      they were, active NULL, base NULL exactly when it was the destroyed one. */
  lemma DestroyActiveFrame(w: World)
    requires w.active != NULL && w.active in w.instances
    requires w.base == NULL || w.base in w.instances
    ensures DestroyInstance(w, w.active).Some?
    ensures var r := DestroyInstance(w, w.active).value;
      && r.active == NULL && r.counter == w.counter
      && r.base == (if w.base == w.active then NULL else w.base)
      && (r.base == NULL || r.base in r.instances)
      && (forall g :: g in r.instances ==> g in w.instances && g != w.active && r.instances[g] == w.instances[g])
  {
    var h := w.active;
    StripActive(w, h);
    var w1 := w.(instances := w.instances[h := StripPools(w.instances[h])]);
    var r := World(w1.instances - {h}, NULL, if w.base == h then NULL else w.base, w.counter);
    assert DestroyInstance(w, h) == Some(r);
  }

  // ---------------------------------------------------------------------
  // Public calls on the active instance

  /** `sdl_tlsf_malloc` on the world: it works on the active instance and
      the shared counter; a NULL active instance is dereferenced: None. */
  function MallocIn(w: World, bytes: Size, env: CoreEnv, blockSize: Addr -> Size): (r: Option<(World, Addr)>)
    ensures r.None? <==> w.active !in w.instances
    ensures r.Some? ==>
      && r.value.0.instances.Keys == w.instances.Keys
      && r.value.0.active == w.active && r.value.0.base == w.base
      && w.counter <= r.value.0.counter <= w.counter + 2
      && (forall g :: g in w.instances && g != w.active ==> r.value.0.instances[g] == w.instances[g])
    ensures r.Some? ==>
      var o := Malloc(w.instances[w.active], w.counter, bytes, env, blockSize);
      && r.value.0.instances[w.active] == o.inst
      && r.value.0.counter == o.counter
      && r.value.1 == o.ptr
  {
    if w.active !in w.instances then None
    else
      var o := Malloc(w.instances[w.active], w.counter, bytes, env, blockSize);
      Some((w.(instances := w.instances[w.active := o.inst], counter := o.counter), o.ptr))
  }

  /** `sdl_tlsf_free` on the world. */
  function FreeIn(w: World, ptr: Addr, blockSize: Addr -> Size): (r: Option<World>)
    ensures r.None? <==> w.active !in w.instances || GetPool(w.instances[w.active], ptr).None?
    ensures r.Some? ==>
      && r.value.instances.Keys == w.instances.Keys
      && r.value.active == w.active && r.value.base == w.base && r.value.counter == w.counter
      && (forall g :: g in w.instances && g != w.active ==> r.value.instances[g] == w.instances[g])
    ensures r.Some? ==> r.value.instances[w.active] == Free(w.instances[w.active], ptr, blockSize).value
  {
    if w.active !in w.instances then None
    else match Free(w.instances[w.active], ptr, blockSize)
      case None => None
      case Some(a) => Some(w.(instances := w.instances[w.active := a]))
  }

  /** A malloc on the active instance keeps the directory invariant: ids
      handed out by the shared counter stay below it in every instance. */
  lemma MallocKeepsWorldWf(w: World, bytes: Size, env: CoreEnv, blockSize: Addr -> Size)
    requires WorldWf(w) && w.active != NULL
    requires FreshGrants(w.instances[w.active], env)
    requires Honest(w.instances[w.active], w.counter, bytes, env)
    ensures WorldWf(MallocIn(w, bytes, env, blockSize).value.0)
  {
    var o := Malloc(w.instances[w.active], w.counter, bytes, env, blockSize);
    MallocPreservesWf(w.instances[w.active], w.counter, bytes, env, blockSize);
    WorldWfReplace(w, w.active, o.inst, o.counter);
  }

  /** Replacing one live instance by a well-formed one whose ids stay below
      a counter no smaller than before keeps the directory invariant. */
  lemma WorldWfReplace(w: World, h: Handle, a: Instance, counter: nat)
    requires WorldWf(w) && h in w.instances
    requires Wf(a) && IdsBelow(a.pools, counter) && w.counter <= counter
    ensures WorldWf(w.(instances := w.instances[h := a], counter := counter))
  {
    var r := w.(instances := w.instances[h := a], counter := counter);
    forall g | g in r.instances
      ensures Wf(r.instances[g]) && IdsBelow(r.instances[g].pools, r.counter)
    {
      if g != h {
        assert r.instances[g] == w.instances[g];
        IdsBelowRaise(w.instances[g].pools, w.counter, counter);
      }
    }
  }

  lemma IdsBelowRaise(ps: seq<Pool>, c0: nat, c1: nat)
    requires IdsBelow(ps, c0) && c0 <= c1
    ensures IdsBelow(ps, c1)
  {
  }

  /** So does a free that resolves its pointer. */
  lemma FreeKeepsWorldWf(w: World, ptr: Addr, blockSize: Addr -> Size)
    requires WorldWf(w)
    ensures FreeIn(w, ptr, blockSize).Some? ==> WorldWf(FreeIn(w, ptr, blockSize).value)
  {
    if FreeIn(w, ptr, blockSize).Some? {
      var a := Free(w.instances[w.active], ptr, blockSize).value;
      FreePreservesWf(w.instances[w.active], w.counter, ptr, blockSize);
      WorldWfReplace(w, w.active, a, w.counter);
      assert FreeIn(w, ptr, blockSize).value == w.(instances := w.instances[w.active := a], counter := w.counter);
    }
  }
}

=== FILE: findings.dfy ===
/** Four places where TLSF/SDL_TLSF/sdl_tlsf.c contradicts the meaning its
    other lines give a counter or the header pool: creation sets
    `total_size = pool_size` (line 114) and `free_pool` takes `pool_size`
    off (line 543); malloc, calloc and free keep `total_used` with the
    pools' `used` (lines 250-258, 284); the destroy walk keeps the header
    pool because it is contiguous with the instance (line 153). For each:
    the behaviour as written, an input that exhibits the discrepancy, and
    a corrected definition with the intended property proved. */
module Findings {
  import opened Common
  import opened PoolList
  import opened Arena
  import opened Directory

  // ---------------------------------------------------------------------
  // 1. `total_size` grows by `alloc_size` per added pool but shrinks by
  //    `pool_size` per freed pool (lines 509 and 543).

  /** `total_size` is the capacity of the pools: the sum of their `bytes`,
      as `sdl_tlsf_create_instance` sets it (line 114). */
  predicate Sized(a: Instance)
  {
    a.totalSize == Sum(Bytes(a.pools)) % WORD
  }

  lemma CreateIsSized(poolSize: Size, mem: Addr)
    ensures Sized(CreateInstance(poolSize, Some(mem)).value)
  {
    var a := CreateInstance(poolSize, Some(mem)).value;
    assert Bytes(a.pools) == [poolSize];
  }

  /** `(t + p + d) - p == t + d` in `size_t`, however the additions wrap. */
  lemma AddSubShift(t: Size, p: Size, d: Size)
    ensures Sub(Add(t, Add(p, d)), p) == Add(t, d)
  {
    ModAddRight(t, p + d);
    ModAddRight(-(p as int), t + p + d);
    ModAddRight(d, t);
  }

  /** Adding `d` with 0 < d < 2^64 always changes a `size_t`. */
  lemma AddMoves(t: Size, d: Size)
    requires 0 < d
    ensures Add(t, d) != t
  {
  }

  /** As written: a pool added and then freed again leaves the pool list as
      it was but `total_size` larger by the record and the core overhead. */
  lemma AddThenFreeDrifts(a: Instance, counter: nat, mem: Addr)
    ensures var r := FreePool(AddPool(a, counter, Mapped(mem)).0, |a.pools|);
      && r.pools == a.pools
      && r.totalSize == Add(a.totalSize, POOL_RECORD + POOL_OVERHEAD)
      && r.totalSize != a.totalSize
  {
    var b := AddPool(a, counter, Mapped(mem)).0;
    assert b.pools[..|a.pools|] + b.pools[|a.pools| + 1..] == a.pools;
    assert AllocSize(a.poolSize) == Add(a.poolSize, POOL_RECORD + POOL_OVERHEAD) by {
      ModAddRight(POOL_OVERHEAD, a.poolSize + POOL_RECORD);
    }
    AddSubShift(a.totalSize, a.poolSize, POOL_RECORD + POOL_OVERHEAD);
    AddMoves(a.totalSize, POOL_RECORD + POOL_OVERHEAD);
  }

  /** As written, one added pool already breaks `Sized`. */
  lemma AddPoolBreaksSized(a: Instance, counter: nat, mem: Addr)
    requires Sized(a)
    ensures !Sized(AddPool(a, counter, Mapped(mem)).0)
  {
    var b := AddPool(a, counter, Mapped(mem)).0;
    var S := Sum(Bytes(a.pools));
    assert Bytes(b.pools) == Bytes(a.pools) + [a.poolSize];
    SumAppend(Bytes(a.pools), a.poolSize);
    assert AllocSize(a.poolSize) == Add(a.poolSize, POOL_RECORD + POOL_OVERHEAD) by {
      ModAddRight(POOL_OVERHEAD, a.poolSize + POOL_RECORD);
    }
    ModAddRight(a.poolSize, S);
    assert Add(a.totalSize, a.poolSize) == (S + a.poolSize) % WORD;
    assert b.totalSize == Add(a.totalSize, Add(a.poolSize, POOL_RECORD + POOL_OVERHEAD));
    AddSubShift(a.totalSize, a.poolSize, POOL_RECORD + POOL_OVERHEAD);
    AddMoves(a.totalSize, POOL_RECORD + POOL_OVERHEAD);
  }

  /** Corrected `sdl_tlsf_add_pool`: `total_size` grows by the pool's usable
      bytes, the amount `sdl_tlsf_free_pool` takes off again. */
  function AddPoolFixed(a: Instance, counter: nat, g: Grant): (r: (Instance, nat))
    ensures r.0.pools == AddPool(a, counter, g).0.pools && r.1 == AddPool(a, counter, g).1
    ensures g.Mapped? ==> r.0.totalSize == Add(a.totalSize, a.poolSize)
  {
    var r := AddPool(a, counter, g);
    if g.Mapped? then (r.0.(totalSize := Add(a.totalSize, a.poolSize)), r.1) else r
  }

  /** The corrected add keeps `total_size` equal to the pools' capacity. */
  lemma FixedAddKeepsSized(a: Instance, counter: nat, g: Grant)
    requires Sized(a)
    ensures Sized(AddPoolFixed(a, counter, g).0)
  {
    if g.Mapped? {
      var b := AddPoolFixed(a, counter, g).0;
      assert Bytes(b.pools) == Bytes(a.pools) + [a.poolSize];
      SumAppend(Bytes(a.pools), a.poolSize);
      ModAddRight(a.poolSize, Sum(Bytes(a.pools)));
    }
  }

  /** The free as written keeps it too: it takes off one pool's bytes. */
  lemma FreePoolKeepsSized(a: Instance, k: nat)
    requires Layout(a.pools, a.poolSize) && Sized(a) && k < |a.pools|
    ensures Sized(FreePool(a, k))
  {
    var S := Sum(Bytes(a.pools));
    assert FreePool(a, k).pools == a.pools[..k] + a.pools[k + 1..];
    ProjectRemove(a.pools, k);
    SumRemove(Bytes(a.pools), k);
    assert Sum(Bytes(FreePool(a, k).pools)) == S - a.poolSize;
    ModAddRight(-(a.poolSize as int), S);
  }

  /** With the correction, adding a pool and freeing it again restores
      `total_size` exactly. */
  lemma FixedAddThenFreeRestores(a: Instance, counter: nat, mem: Addr)
    ensures var r := FreePool(AddPoolFixed(a, counter, Mapped(mem)).0, |a.pools|);
      r.pools == a.pools && r.totalSize == a.totalSize
  {
    var b := AddPoolFixed(a, counter, Mapped(mem)).0;
    assert b.pools[..|a.pools|] + b.pools[|a.pools| + 1..] == a.pools;
    ModAddRight(-(a.poolSize as int), a.totalSize + a.poolSize);
  }

  // ---------------------------------------------------------------------
  // 2. `sdl_tlsf_realloc` moves pool usage but never `total_used`
  //    (lines 384-403).

  /** Block sizes for the counterexample: nothing is allocated yet, and
      the core hands out 112-byte blocks. */
  function NoBlock(p: Addr): Size { 0 }
  function Block112(p: Addr): Size { 112 }

  /** A reallocation of NULL to 100 bytes on a fresh 1000-byte instance: the
      core places a 112-byte block inside the only pool. The pool's `used`
      becomes 112 while `total_used` stays 0. */
  lemma ReallocUnbalances()
    ensures var a := CreateInstance(1000, Some(4096)).value;
      var env := CoreEnv(MapFailed, MapFailed, 4300, NULL);
      var r := Realloc(a, 0, NULL, 100, env, NoBlock, Block112);
      && Wf(a)
      && r.ptr == 4300
      && r.inst.pools[0].used == 112
      && r.inst.totalUsed == 0
      && !Balanced(r.inst)
  {
    var a := CreateInstance(1000, Some(4096)).value;
    var env := CoreEnv(MapFailed, MapFailed, 4300, NULL);
    assert FindPool(a.pools, NULL) == None;
    assert FindPool(a.pools, 4300) == Some(0);
    var r := Realloc(a, 0, NULL, 100, env, NoBlock, Block112);
    assert Used(r.inst.pools) == [112];
  }

  /** `used` of the pool holding `addr` and `total_used` moved together by
      `delta`, upwards or downwards; nothing when no pool holds `addr`. */
  function Settle(a: Instance, addr: Addr, delta: Size, up: bool): (r: Instance)
    ensures |r.pools| == |a.pools| && Refs(r.pools) == Refs(a.pools)
    ensures FindPool(a.pools, addr).None? ==> r == a
    ensures FindPool(a.pools, addr).Some? ==>
      var k := FindPool(a.pools, addr).value;
      && r.pools[k].used == (if up then Add(a.pools[k].used, delta) else Sub(a.pools[k].used, delta))
      && r.totalUsed == (if up then Add(a.totalUsed, delta) else Sub(a.totalUsed, delta))
      && (forall j :: 0 <= j < |a.pools| && j != k ==> r.pools[j] == a.pools[j])
    ensures Sound(a) ==> Sound(r)
    ensures Balanced(a) ==> Balanced(r)
  {
    match FindPool(a.pools, addr)
    case None => a
    case Some(k) =>
      var v := if up then Add(a.pools[k].used, delta) else Sub(a.pools[k].used, delta);
      SetUsedKeeps(a.pools, k, v, a.poolSize, 0);
      SettleBalanced(a, k, delta, up);
      a.(pools := SetUsed(a.pools, k, v), totalUsed := if up then Add(a.totalUsed, delta) else Sub(a.totalUsed, delta))
  }

  lemma SettleBalanced(a: Instance, k: nat, delta: Size, up: bool)
    requires k < |a.pools|
    ensures var v := if up then Add(a.pools[k].used, delta) else Sub(a.pools[k].used, delta);
      var t := if up then Add(a.totalUsed, delta) else Sub(a.totalUsed, delta);
      Balanced(a) ==> Balanced(a.(pools := SetUsed(a.pools, k, v), totalUsed := t))
  {
    if Balanced(a) {
      if up {
        BumpBalanced(a.pools, k, a.totalUsed, delta);
      } else {
        DropBalanced(a.pools, k, a.totalUsed, delta);
      }
    }
  }

  /** Corrected moved case: `total_used` follows both pool updates. */
  function MovedFixed(g: Outcome, ptr: Addr, current: Size, newBlock: Size): (r: Outcome)
    ensures r.counter == g.counter && r.ptr == g.ptr
    ensures Wf(g.inst) ==> Wf(r.inst)
  {
    var ko := FindPool(g.inst.pools, ptr);
    var i2 := Settle(Settle(g.inst, ptr, current, false), g.ptr, newBlock, true);
    if ko.Some? && i2.pools[ko.value].used == 0 && i2.numPools > 1 then
      FixedFreeHelper(i2, ko.value);
      Outcome(FreePool(i2, ko.value), g.counter, g.ptr)
    else Outcome(i2, g.counter, g.ptr)
  }

  lemma FixedFreeHelper(a: Instance, k: nat)
    requires k < |a.pools| && a.numPools > 1 && a.pools[k].used == 0
    ensures Wf(a) ==> Wf(FreePool(a, k))
  {
    if Wf(a) {
      FreePoolPreservesWf(a, k, MaxId(a.pools));
    }
  }

  /** Corrected `sdl_tlsf_realloc`: the same policy and pool updates, with
      `total_used` moved by the same amounts as the pools' `used`. */
  function ReallocFixed(a: Instance, counter: nat, ptr: Addr, size: Size, env: CoreEnv,
                        before: Addr -> Size, after: Addr -> Size): (r: Outcome)
    ensures r.ptr == Realloc(a, counter, ptr, size, env, before, after).ptr
  {
    var current := if ptr == NULL then 0 else before(ptr);
    if size > current && TooLarge(a, size) then Outcome(a, counter, NULL)
    else
      var g := GrowThenRetry(a, counter, size > current && Headroom(a) < size - current, size > current, env);
      SettleFixed(g, ptr, current, after(g.ptr))
  }

  /** Corrected accounting after the core answered: nothing on failure, the
      moved case, or the in-place case with pool and total moved together. */
  function SettleFixed(g: Outcome, ptr: Addr, current: Size, newBlock: Size): (r: Outcome)
    ensures r.counter == g.counter && r.ptr == g.ptr
    ensures g.ptr == NULL ==> r == g
    ensures Wf(g.inst) ==> Wf(r.inst)
  {
    if g.ptr == NULL then g
    else if g.ptr != ptr then MovedFixed(g, ptr, current, newBlock)
    else Outcome(Settle(g.inst, g.ptr, Sub(newBlock, current), true), g.counter, g.ptr)
  }

  /** The corrected realloc keeps `total_used == Σ used`. */
  lemma ReallocFixedPreservesWf(a: Instance, counter: nat, ptr: Addr, size: Size, env: CoreEnv,
                                before: Addr -> Size, after: Addr -> Size)
    requires Wf(a) && IdsBelow(a.pools, counter)
    requires FreshGrants(a, env)
    ensures Wf(ReallocFixed(a, counter, ptr, size, env, before, after).inst)
  {
    var current := if ptr == NULL then 0 else before(ptr);
    GrowThenRetryPreservesWf(a, counter, size > current && Headroom(a) < size - current, size > current, env);
  }

  // ---------------------------------------------------------------------
  // 3. `sdl_tlsf_free_pool` updates the ACTIVE instance's header, tail and
  //    counters (lines 533-543), so destroying another instance corrupts
  //    the active one (lines 153-159).

  /** Lowering a `size_t` by one between 1 and 2^64 - 1 times always
      changes it. */
  lemma SubMoves(x: Size, d: nat)
    requires 0 < d < WORD
    ensures SubTimes(x, 1, d) != x
  {
    assert d * 1 == d;
  }

  /** As written: destroying an instance with two or more pools while
      another instance is active leaves the active instance's `num_pools`
      out of step with its pool list. */
  lemma DestroyOtherBreaksActive(w: World, h: Handle)
    requires h != NULL && h in w.instances && w.active in w.instances && h != w.active
    requires Sound(w.instances[w.active])
    requires 2 <= |w.instances[h].pools| <= WORD
    ensures DestroyInstance(w, h).Some?
    ensures w.active in DestroyInstance(w, h).value.instances
    ensures !Sound(DestroyInstance(w, h).value.instances[w.active])
  {
    StripOther(w, h);
    StripOtherKeeps(w, h);
    var act := w.instances[w.active];
    var n := |w.instances[h].pools|;
    var w1 := Strip(w, h).value;
    var after := w1.instances[w.active];
    assert DestroyInstance(w, h) == Some(World(w1.instances - {h}, w1.active, if w1.base == h then NULL else w1.base, w1.counter));
    assert (w1.instances - {h})[w.active] == after;
    assert after.pools == act.pools;
    assert after.numPools == SubTimes(act.numPools, 1, n - 1);
    SubMoves(act.numPools, n - 1);
    assert after.numPools != |after.pools| % WORD;
  }

  /** Corrected `sdl_tlsf_free_pool`: every update goes to the instance
      that owns the pool. */
  function FreePoolOf(w: World, h: Handle, k: nat): (r: World)
    requires h in w.instances && k < |w.instances[h].pools|
    ensures r.instances.Keys == w.instances.Keys
    ensures forall g :: g in w.instances && g != h ==> r.instances[g] == w.instances[g]
    ensures r.active == w.active && r.base == w.base && r.counter == w.counter
  {
    w.(instances := w.instances[h := FreePool(w.instances[h], k)])
  }

  /** The correction agrees with the source when the owner is active, and
      keeps the owner sound when it has a pool to spare. */
  lemma FreePoolOfAgrees(w: World, h: Handle, k: nat)
    requires h in w.instances && k < |w.instances[h].pools|
    ensures h == w.active ==> FreePoolIn(w, h, k) == Some(FreePoolOf(w, h, k))
    ensures Sound(w.instances[h]) && 2 <= |w.instances[h].pools| ==> Sound(FreePoolOf(w, h, k).instances[h])
  {
    if h == w.active {
      FreePoolInActive(w, h, k);
    }
    if Sound(w.instances[h]) && 2 <= |w.instances[h].pools| {
      FreePoolPreservesWf(w.instances[h], k, MaxId(w.instances[h].pools));
    }
  }

  /** Corrected destroy walk: the owner's own pools are freed, tail first. */
  function StripFixed(w: World, h: Handle): (r: World)
    requires h in w.instances
    decreases |w.instances[h].pools|
    ensures r.instances.Keys == w.instances.Keys
    ensures forall g :: g in w.instances && g != h ==> r.instances[g] == w.instances[g]
    ensures r.active == w.active && r.base == w.base && r.counter == w.counter
  {
    var n := |w.instances[h].pools|;
    if n <= 1 then w else StripFixed(FreePoolOf(w, h, n - 1), h)
  }

  /** Corrected `sdl_tlsf_destroy_instance`. */
  function DestroyFixed(w: World, h: Handle): (r: World)
    requires h == NULL || h in w.instances
    ensures h == NULL ==> r == w
    ensures h != NULL ==> r.instances.Keys == w.instances.Keys - {h}
    ensures forall g :: g in r.instances ==> g in w.instances && r.instances[g] == w.instances[g]
    ensures h != NULL ==> r.active == (if w.active == h then NULL else w.active)
    ensures h != NULL ==> r.base == (if w.base == h then NULL else w.base)
    ensures r.counter == w.counter
  {
    if h == NULL then w
    else
      var w1 := StripFixed(w, h);
      World(w1.instances - {h},
            if w1.active == h then NULL else w1.active,
            if w1.base == h then NULL else w1.base,
            w1.counter)
  }

  /** The corrected destroy keeps the directory invariant whichever
      instance is destroyed. */
  lemma DestroyFixedKeepsWorldWf(w: World, h: Handle)
    requires WorldWf(w) && (h == NULL || h in w.instances)
    ensures WorldWf(DestroyFixed(w, h))
  {
    DestroyFixedHandles(w, h);
    WorldWfSub(w, DestroyFixed(w, h));
  }

  /** The corrected destroy leaves active and base live or NULL. */
  lemma DestroyFixedHandles(w: World, h: Handle)
    requires h == NULL || h in w.instances
    requires w.active == NULL || w.active in w.instances
    requires w.base == NULL || w.base in w.instances
    ensures var r := DestroyFixed(w, h);
      && (r.active == NULL || r.active in r.instances)
      && (r.base == NULL || r.base in r.instances)
  {
  }

  /** On the active instance the corrected destroy agrees with the source. */
  lemma DestroyFixedAgrees(w: World)
    requires w.active in w.instances && w.active != NULL
    ensures DestroyInstance(w, w.active) == Some(DestroyFixed(w, w.active))
  {
    var h := w.active;
    StripActive(w, h);
    var m1 := w.instances[h := StripPools(w.instances[h])] - {h};
    var m2 := StripFixed(w, h).instances - {h};
    assert m1.Keys == m2.Keys;
    assert forall g :: g in m1 ==> m1[g] == m2[g];
    assert m1 == m2;
  }

  // ---------------------------------------------------------------------
  // 4. `sdl_tlsf_free` may remove the first pool (lines 287-293), although
  //    that pool shares the instance's own mapping and the destroy walk
  //    relies on the header being that pool (lines 151-159).

  /** As written: with two or more pools, freeing the last block of the
      first pool removes it, and the second pool becomes the header. */
  lemma FreeDropsFirstPool(a: Instance, ptr: Addr, blockSize: Addr -> Size)
    requires Wf(a) && 2 <= |a.pools| < WORD
    requires Holds(a.pools[0], ptr) && a.pools[0].used == blockSize(ptr)
    ensures Free(a, ptr, blockSize).Some?
    ensures |Free(a, ptr, blockSize).value.pools| == |a.pools| - 1
    ensures Free(a, ptr, blockSize).value.links.header == Some(a.pools[1].rec)
  {
    GetPoolResolvesOwner(a, ptr, 0);
    var a1 := a.(pools := SetUsed(a.pools, 0, 0), totalUsed := Sub(a.totalUsed, blockSize(ptr)));
    assert a1.numPools > 1;
    assert Free(a, ptr, blockSize) == Some(FreePool(a1, 0));
    SetUsedKeeps(a.pools, 0, 0, a.poolSize, 0);
    FreePoolEnds(a1, 0);
  }

  /** Corrected `sdl_tlsf_free`: the first pool is emptied but never removed. */
  function FreeFixed(a: Instance, ptr: Addr, blockSize: Addr -> Size): (r: Option<Instance>)
    ensures r.None? <==> GetPool(a, ptr).None?
    ensures r.Some? ==> r.value.totalUsed == Sub(a.totalUsed, blockSize(ptr))
  {
    match GetPool(a, ptr)
    case None => None
    case Some(k) =>
      if k == 0 then
        Some(a.(pools := SetUsed(a.pools, 0, Sub(a.pools[0].used, blockSize(ptr))),
                totalUsed := Sub(a.totalUsed, blockSize(ptr))))
      else Free(a, ptr, blockSize)
  }

  /** The corrected free keeps the invariant and keeps the first pool as
      the header. */
  lemma FreeFixedKeepsHeader(a: Instance, ptr: Addr, blockSize: Addr -> Size)
    requires Wf(a) && GetPool(a, ptr).Some?
    ensures Wf(FreeFixed(a, ptr, blockSize).value)
    ensures FreeFixed(a, ptr, blockSize).value.pools[0].rec == a.pools[0].rec
    ensures FreeFixed(a, ptr, blockSize).value.links.header == a.links.header
  {
    var k := GetPool(a, ptr).value;
    var b := blockSize(ptr);
    if k == 0 {
      DropBalanced(a.pools, 0, a.totalUsed, b);
      SetUsedKeeps(a.pools, 0, Sub(a.pools[0].used, b), a.poolSize, MaxId(a.pools));
    } else {
      FreePreservesWf(a, MaxId(a.pools), ptr, blockSize);
      var r := Free(a, ptr, blockSize).value;
      assert r.pools[0].rec == a.pools[0].rec;
    }
  }
}

=== FILE: pool_list.dfy ===
/** The pool records of an instance and the doubly linked list that orders
    them: `header`/`tail` plus each record's `prev`/`next` pointer, keyed by
    the address of the record. The abstract order is a sequence of record
    addresses; `Shape` says the pointers describe exactly that sequence. */
module PoolList {
  import opened Common

  /** A machine address; 0 is NULL. */
  type Addr = nat

  const NULL: Addr := 0

  /** One pool: its identity, the address of its bookkeeping record, the
      range of usable memory it hands to the core, its capacity and the bytes
      currently allocated from it. */
  datatype Pool = Pool(id: nat, rec: Addr, start: Addr, end: Addr, bytes: Size, used: Size)

  /** Range test of `sdl_tlsf_get_pool`: both bounds are inclusive. */
  predicate Holds(p: Pool, addr: Addr)
  {
    p.start <= addr <= p.end
  }

  function Refs(ps: seq<Pool>): (rs: seq<Addr>)
    ensures |rs| == |ps|
    ensures forall i :: 0 <= i < |ps| ==> rs[i] == ps[i].rec
  {
    seq(|ps|, i requires 0 <= i < |ps| => ps[i].rec)
  }

  function Used(ps: seq<Pool>): (us: seq<int>)
    ensures |us| == |ps|
    ensures forall i :: 0 <= i < |ps| ==> us[i] == ps[i].used
  {
    seq(|ps|, i requires 0 <= i < |ps| => ps[i].used)
  }

  function Bytes(ps: seq<Pool>): (bs: seq<int>)
    ensures |bs| == |ps|
    ensures forall i :: 0 <= i < |ps| ==> bs[i] == ps[i].bytes
  {
    seq(|ps|, i requires 0 <= i < |ps| => ps[i].bytes)
  }

  /** Dropping pool `k` drops the k-th entry of every projection. */
  lemma ProjectRemove(ps: seq<Pool>, k: nat)
    requires k < |ps|
    ensures Refs(ps[..k] + ps[k + 1..]) == Refs(ps)[..k] + Refs(ps)[k + 1..]
    ensures Used(ps[..k] + ps[k + 1..]) == Used(ps)[..k] + Used(ps)[k + 1..]
    ensures Bytes(ps[..k] + ps[k + 1..]) == Bytes(ps)[..k] + Bytes(ps)[k + 1..]
  {
  }

  /** First pool, in list order, whose range holds `addr`. */
  function FindPool(ps: seq<Pool>, addr: Addr): (r: Option<nat>)
    ensures r.Some? ==> r.value < |ps| && Holds(ps[r.value], addr)
    ensures r.Some? ==> forall j :: 0 <= j < r.value ==> !Holds(ps[j], addr)
    ensures r.None? ==> forall j :: 0 <= j < |ps| ==> !Holds(ps[j], addr)
  {
    if |ps| == 0 then None
    else if Holds(ps[0], addr) then Some(0)
    else match FindPool(ps[1..], addr)
      case None => None
      case Some(k) => Some(k + 1)
  }

  /** The pointer structure of the list. */
  datatype Links = Links(header: Option<Addr>, tail: Option<Addr>,
                         prev: map<Addr, Option<Addr>>, next: map<Addr, Option<Addr>>)

  /** Reading a link field of a record; a missing record reads as NULL. */
  function Get(m: map<Addr, Option<Addr>>, r: Addr): Option<Addr>
  {
    if r in m then m[r] else None
  }

  predicate Distinct(rs: seq<Addr>)
  {
    forall i, j :: 0 <= i < j < |rs| ==> rs[i] != rs[j]
  }

  function First(rs: seq<Addr>): Option<Addr>
  {
    if |rs| == 0 then None else Some(rs[0])
  }

  function Last(rs: seq<Addr>): Option<Addr>
  {
    if |rs| == 0 then None else Some(rs[|rs| - 1])
  }

  /** The record after position `i` of `rs`, NULL past the end. */
  function After(rs: seq<Addr>, i: int): Option<Addr>
  {
    if 0 <= i && i + 1 < |rs| then Some(rs[i + 1]) else None
  }

  /** The record before position `i` of `rs`, NULL before the start. */
  function Before(rs: seq<Addr>, i: int): Option<Addr>
  {
    if 0 < i && i - 1 < |rs| then Some(rs[i - 1]) else None
  }

  /** Every link of the list except `tail` agrees with the order `rs`. */
  predicate Chain(l: Links, rs: seq<Addr>)
  {
    && Distinct(rs)
    && l.header == First(rs)
    && (forall i {:trigger Get(l.next, rs[i])} :: 0 <= i < |rs| ==> Get(l.next, rs[i]) == After(rs, i))
    && (forall i {:trigger Get(l.prev, rs[i])} :: 0 <= i < |rs| ==> Get(l.prev, rs[i]) == Before(rs, i))
  }

  /** The list's pointers describe exactly the order `rs`. */
  predicate Shape(l: Links, rs: seq<Addr>)
  {
    Chain(l, rs) && l.tail == Last(rs)
  }

  /** The neighbour surgery of `sdl_tlsf_free_pool`: `prev->next = next`,
      `next->prev = prev`; the unlinked record itself is unmapped. */
  function Relink(l: Links, r: Addr): Links
  {
    var p := Get(l.prev, r);
    var n := Get(l.next, r);
    var next1 := if p.Some? then l.next[p.value := n] else l.next;
    var prev1 := if n.Some? then l.prev[n.value := p] else l.prev;
    l.(prev := prev1 - {r}, next := next1 - {r})
  }

  /** The endpoint update of `sdl_tlsf_free_pool`: a removed header is
      replaced by its successor, a removed tail by its predecessor. */
  function RetargetEnds(l: Links, r: Addr, p: Option<Addr>, n: Option<Addr>): Links
  {
    l.(header := if l.header == Some(r) then n else l.header,
       tail := if l.tail == Some(r) then p else l.tail)
  }

  /** Removing record `r` from the list of its own instance. */
  function Unlink(l: Links, r: Addr): Links
  {
    RetargetEnds(Relink(l, r), r, Get(l.prev, r), Get(l.next, r))
  }

  /** Appending record `r` at the tail, as `sdl_tlsf_add_pool` does. */
  function LinkTail(l: Links, r: Addr): Links
  {
    var next1 := l.next[r := None];
    var next2 := if l.tail.Some? then next1[l.tail.value := Some(r)] else next1;
    Links(if l.header.None? then Some(r) else l.header, Some(r), l.prev[r := l.tail], next2)
  }

  /** The records visited by following `next` from `cur`, at most `fuel` of them. */
  function Walk(l: Links, cur: Option<Addr>, fuel: nat): seq<Addr>
    decreases fuel
  {
    if fuel == 0 || cur.None? then []
    else [cur.value] + Walk(l, Get(l.next, cur.value), fuel - 1)
  }

  /** From the i-th record the walk visits the rest of the order and then
      stops, however much fuel is left over. */
  lemma {:induction false} WalkSuffix(l: Links, rs: seq<Addr>, i: nat, spare: nat)
    requires Chain(l, rs)
    requires i <= |rs|
    ensures Walk(l, if i < |rs| then Some(rs[i]) else None, |rs| - i + spare) == rs[i..]
    decreases |rs| - i
  {
    if i < |rs| {
      assert Get(l.next, rs[i]) == After(rs, i);
      WalkSuffix(l, rs, i + 1, spare);
      assert rs[i..] == [rs[i]] + rs[i + 1..];
    }
  }

  /** Following `next` from `header` visits the pools in list order, each
      once, and stops at NULL after the last one: with fuel for one more
      step the walk still returns exactly the order, so the last record's
      `next` is NULL. This is the scan order of `sdl_tlsf_get_pool`. */
  lemma WalkFromHeader(l: Links, rs: seq<Addr>)
    requires Chain(l, rs)
    ensures Walk(l, l.header, |rs|) == rs
    ensures Walk(l, l.header, |rs| + 1) == rs
  {
    WalkSuffix(l, rs, 0, 0);
    WalkSuffix(l, rs, 0, 1);
  }

  /** Appending a fresh record at the tail yields the list extended by it:
      the old tail now points to it and it points back to the old tail. */
  lemma LinkTailShape(l: Links, rs: seq<Addr>, r: Addr)
    requires Shape(l, rs)
    requires r !in rs
    ensures Shape(LinkTail(l, r), rs + [r])
    ensures Get(LinkTail(l, r).prev, r) == l.tail
    ensures l.tail.Some? ==> Get(LinkTail(l, r).next, l.tail.value) == Some(r)
  {
    var l' := LinkTail(l, r);
    var rs' := rs + [r];
    assert rs'[|rs'| - 1] == r;
    forall i, j | 0 <= i < j < |rs'|
      ensures rs'[i] != rs'[j]
    {
      if j == |rs| {
        assert rs'[i] == rs[i];
      }
    }
    forall i | 0 <= i < |rs'|
      ensures Get(l'.next, rs'[i]) == After(rs', i)
      ensures Get(l'.prev, rs'[i]) == Before(rs', i)
    {
      if i < |rs| {
        assert rs'[i] == rs[i];
        assert rs[i] != r;
        assert Get(l.next, rs[i]) == After(rs, i);
        assert Get(l.prev, rs[i]) == Before(rs, i);
        if i + 1 == |rs| {
          assert l.tail == Some(rs[i]);
        } else {
          assert rs'[i + 1] == rs[i + 1];
          assert l.tail != Some(rs[i]) by {
            assert l.tail == Some(rs[|rs| - 1]);
          }
        }
      } else if 0 < i {
        assert rs'[i - 1] == rs[|rs| - 1];
      }
    }
  }

  /** Dropping position `k` of a list of distinct records. */
  lemma RemoveAt(rs: seq<Addr>, k: nat)
    requires Distinct(rs)
    requires k < |rs|
    ensures var rs' := rs[..k] + rs[k + 1..];
      && |rs'| == |rs| - 1
      && (forall j :: 0 <= j < |rs'| ==> rs'[j] == (if j < k then rs[j] else rs[j + 1]))
      && Distinct(rs')
      && rs[k] !in rs'
  {
    var rs' := rs[..k] + rs[k + 1..];
    assert forall j :: 0 <= j < |rs'| ==> rs'[j] == (if j < k then rs[j] else rs[j + 1]);
    assert rs[k] !in rs' by {
      forall j | 0 <= j < |rs'|
        ensures rs'[j] != rs[k]
      {
      }
    }
  }

  /** Unlinking the record at position `k` leaves the list of the other
      records, in their old order, with header and tail moved when `k` was
      an endpoint. */
  lemma UnlinkShape(l: Links, rs: seq<Addr>, k: nat)
    requires Shape(l, rs)
    requires k < |rs|
    ensures Shape(Unlink(l, rs[k]), rs[..k] + rs[k + 1..])
  {
    RemoveAt(rs, k);
    UnlinkNeighbours(l, rs, k);
    UnlinkEnds(l, rs, k);
  }

  /** Header and tail after unlinking position `k`. */
  lemma UnlinkEnds(l: Links, rs: seq<Addr>, k: nat)
    requires Shape(l, rs)
    requires k < |rs|
    ensures Unlink(l, rs[k]).header == First(rs[..k] + rs[k + 1..])
    ensures Unlink(l, rs[k]).tail == Last(rs[..k] + rs[k + 1..])
  {
    UnlinkHeader(l, rs, k);
    UnlinkTail(l, rs, k);
  }

  lemma UnlinkHeader(l: Links, rs: seq<Addr>, k: nat)
    requires Chain(l, rs)
    requires k < |rs|
    ensures Unlink(l, rs[k]).header == First(rs[..k] + rs[k + 1..])
  {
    var r := rs[k];
    var rs' := rs[..k] + rs[k + 1..];
    if k == 0 {
      assert Get(l.next, r) == After(rs, k);
      if 1 < |rs| {
        assert rs'[0] == rs[1];
      }
    } else {
      assert rs'[0] == rs[0];
      assert rs[0] != r;
    }
  }

  lemma UnlinkTail(l: Links, rs: seq<Addr>, k: nat)
    requires Shape(l, rs)
    requires k < |rs|
    ensures Unlink(l, rs[k]).tail == Last(rs[..k] + rs[k + 1..])
  {
    var r := rs[k];
    var rs' := rs[..k] + rs[k + 1..];
    assert |rs'| == |rs| - 1;
    if k == |rs| - 1 {
      assert Get(l.prev, r) == Before(rs, k);
      if 0 < k {
        assert rs'[|rs'| - 1] == rs[k - 1];
      }
    } else {
      assert rs'[|rs'| - 1] == rs[|rs| - 1];
      assert rs[|rs| - 1] != r;
    }
  }

  lemma UnlinkNeighbours(l: Links, rs: seq<Addr>, k: nat)
    requires Chain(l, rs)
    requires k < |rs|
    ensures var rs' := rs[..k] + rs[k + 1..];
      var l' := Relink(l, rs[k]);
      forall i :: 0 <= i < |rs'| ==>
        && Get(l'.next, rs'[i]) == After(rs', i)
        && Get(l'.prev, rs'[i]) == Before(rs', i)
  {
    var rs' := rs[..k] + rs[k + 1..];
    forall i | 0 <= i < |rs'|
      ensures Get(Relink(l, rs[k]).next, rs'[i]) == After(rs', i)
      ensures Get(Relink(l, rs[k]).prev, rs'[i]) == Before(rs', i)
    {
      if i < k {
        UnlinkBefore(l, rs, k, i);
      } else {
        UnlinkAfter(l, rs, k, i);
      }
    }
  }

  /** A record before the unlinked one keeps its links, except that the
      immediate predecessor now points past the unlinked record. */
  lemma UnlinkBefore(l: Links, rs: seq<Addr>, k: nat, i: nat)
    requires Chain(l, rs)
    requires i < k < |rs|
    ensures var rs' := rs[..k] + rs[k + 1..];
      && Get(Relink(l, rs[k]).next, rs'[i]) == After(rs', i)
      && Get(Relink(l, rs[k]).prev, rs'[i]) == Before(rs', i)
  {
    var r := rs[k];
    var rs' := rs[..k] + rs[k + 1..];
    assert |rs'| == |rs| - 1;
    assert rs'[i] == rs[i];
    assert rs[i] != r;
    var p := Get(l.prev, r);
    var n := Get(l.next, r);
    assert p == Before(rs, k);
    assert n == After(rs, k);
    assert Get(l.next, rs[i]) == After(rs, i);
    assert Get(l.prev, rs[i]) == Before(rs, i);
    if k + 1 < |rs| {
      assert rs[k + 1] != rs[i];
    }
    if i + 1 == k {
      assert p == Some(rs[i]);
    } else {
      assert rs[k - 1] != rs[i];
      assert rs'[i + 1] == rs[i + 1];
    }
    if 0 < i {
      assert rs'[i - 1] == rs[i - 1];
    }
  }

  /** A record after the unlinked one keeps its links, except that the
      immediate successor now points back past the unlinked record. */
  lemma UnlinkAfter(l: Links, rs: seq<Addr>, k: nat, i: nat)
    requires Chain(l, rs)
    requires k <= i < |rs| - 1
    ensures var rs' := rs[..k] + rs[k + 1..];
      && Get(Relink(l, rs[k]).next, rs'[i]) == After(rs', i)
      && Get(Relink(l, rs[k]).prev, rs'[i]) == Before(rs', i)
  {
    var rs' := rs[..k] + rs[k + 1..];
    assert |rs'| == |rs| - 1;
    assert rs'[i] == rs[i + 1];
    assert rs[i + 1] != rs[k];
    UnlinkAfterNext(l, rs, k, i);
    UnlinkAfterPrev(l, rs, k, i);
  }

  lemma UnlinkAfterNext(l: Links, rs: seq<Addr>, k: nat, i: nat)
    requires Chain(l, rs)
    requires k <= i < |rs| - 1
    ensures Get(Relink(l, rs[k]).next, rs[i + 1]) == After(rs[..k] + rs[k + 1..], i)
  {
    var r := rs[k];
    var rs' := rs[..k] + rs[k + 1..];
    var p := Get(l.prev, r);
    assert p == Before(rs, k);
    assert rs[i + 1] != r;
    if 0 < k {
      assert rs[k - 1] != rs[i + 1];
    }
    assert Get(l.next, rs[i + 1]) == After(rs, i + 1);
    if i + 2 < |rs| {
      assert rs'[i + 1] == rs[i + 2];
    }
  }

  lemma UnlinkAfterPrev(l: Links, rs: seq<Addr>, k: nat, i: nat)
    requires Chain(l, rs)
    requires k <= i < |rs| - 1
    ensures Get(Relink(l, rs[k]).prev, rs[i + 1]) == Before(rs[..k] + rs[k + 1..], i)
  {
    var r := rs[k];
    var rs' := rs[..k] + rs[k + 1..];
    var n := Get(l.next, r);
    assert n == After(rs, k);
    assert rs[i + 1] != r;
    assert Get(l.prev, rs[i + 1]) == Before(rs, i + 1);
    if i == k {
      assert n == Some(rs[i + 1]);
      if 0 < k {
        assert rs'[k - 1] == rs[k - 1];
      }
    } else {
      assert rs[k + 1] != rs[i + 1];
      assert rs'[i - 1] == rs[i];
    }
  }

  /** Relinking the last record of a chain of at least two records leaves a
      chain of the others; the header is untouched. This is what each step of
      the tail-to-header walk of `sdl_tlsf_destroy_instance` does to the list
      it walks, whichever instance's endpoints `free_pool` then updates. */
  lemma RelinkLastChain(l: Links, rs: seq<Addr>)
    requires Chain(l, rs)
    requires 2 <= |rs|
    ensures Chain(Relink(l, rs[|rs| - 1]), rs[..|rs| - 1])
  {
    var n := |rs|;
    assert rs[..n - 1] == rs[..n - 1] + rs[n..];
    UnlinkNeighbours(l, rs, n - 1);
    RemoveAt(rs, n - 1);
  }
}
